=== FILE: README.md ===
# Match-3 board rules engine in Dafny

This project models the rules engine of a browser match-3 game (`js/main.js`).
The board is an 8 x 8 grid. Each cell holds one of four tile kinds (0 to 3), or
EMPTY (-1) while a clearing is in progress. The player swaps two neighbouring
tiles. Runs of three or more equal tiles in a row or column are scored and
cleared. The tiles above fall down, and fresh tiles fill the gaps from the top.
The cycle repeats until the board is quiet.

A run of five or more leaves its middle tile standing as a special tile.
Swapping a special tile with a neighbour clears every tile of the neighbour's
kind. The score drives three one-shot sound cues and a target score that ends
the game. A board without any matching swap also ends the game.

The modules follow the structure of the program:

- `Board`: the grid, cells, `swapInBoard`, adjacency.
- `Lines`: the run scan along one line that both passes of `findMatches` use.
  It is proved against an independent definition of a maximal run.
- `Matches`: `findMatches`, the segments and the marks mask. A reference
  predicate `HasTriple` (three equal occupied cells in a line) is proved
  equivalent to `hasMatch`.
- `Clearing`: `calcScoreDelta`, promotion of the middle cell of long segments,
  and the clearing step of `handleMatchesOnce`.
- `Gravity`: `collapseAndRefillWithAnimation`, column by column, proved against
  a reference definition (`Occupied`: the occupied cells of a column, in order).
  The model also proves where each tile lands.
- `Moves`: `willMatchAfterSwap`, `hasPossibleMoves` and the selection logic of
  `onTileClicked`.
- `Generate`: `initBoard` with its rejection loop.
- `Special`: `triggerSpecialClear`: roles, target scan, dedupe, gain, clearing.
- `Scoring`: the score, the best score, `checkEgg`, `checkSpecialWin`,
  `onGameOver` and `resetGame`.
- `Engine`: `handleMatchesOnce`, the cascade, `resolveBoard` and `trySwap`, over
  a game state made of the board, the set of special cells and the session.

Randomness is a parameter. Every call to the random source becomes the next
element of a finite sequence of draws (`draws`). Each operation returns how many
draws it consumed, and it reports `Exhausted` or `None` when the sequence runs
out.

The special flag belongs to the sprite in the program, not to the grid. The
model keeps it as a set of cells next to the grid. When tiles fall, the set
moves with them (`Gravity.Fall`).

The special path is specified against two reference definitions. They are
definitions, not claims. `Engine.ClearSet` is the set of cells a special swap
clears: the two swapped cells and every cell of the other tile's kind.
`Engine.Blasted` is the board with exactly that set emptied.

## Model

| member | source | states |
|---|---|---|
| Board.Swap | js/main.js:532-536 | The two cells exchange their contents and every other cell keeps its contents. |
| Board.SwapInvolution | js/main.js:811-816 | Swapping the same two cells twice gives back the original grid, so the probe and the rejected swap leave no trace. |
| Board.SwapSymmetric | js/main.js:532-536 | The result does not depend on the order of the two cells. |
| Board.SwapKinds | js/main.js:391-394 | Swapping two cells of a board of kinds leaves a board of kinds. |
| Board.Adjacent | js/main.js:304-306 | The adjacency test of two clicked cells holds exactly when they are at Manhattan distance 1. |
| Lines.ScanLine | js/main.js:551-576 | The reported runs are exactly the maximal stretches of at least three equal occupied cells, listed left to right without overlap, so each is reported once. A cell is covered exactly when it lies in such a stretch. |
| Lines.ScanFromCorrect | js/main.js:552-575 | From any state that satisfies the loop invariant, the counter loop ends with a list whose members are exactly the maximal runs. |
| Lines.ScanFromOrdered | js/main.js:552-575 | From reported runs that are in order and end before the current chain, the loop reports further runs only after them, in increasing order without overlap, so no run is listed twice. |
| Matches.SegmentsExact | js/main.js:539-604 | Every segment is the segment of a maximal run of some row or column. Every maximal run of every row and column yields a segment. No segment appears twice. |
| Matches.SegmentsSound | js/main.js:551-604 | Every segment has at least three cells and its `len` equals its number of cells. The cells are consecutive along one row or column, on the board, and all hold the same occupied kind. |
| Matches.MarksExact | js/main.js:539-611 | A cell is marked exactly when some segment lists it. That holds exactly when the cell lies in a horizontal or vertical run of three or more equal occupied cells. |
| Matches.HasMatchIffTriple | js/main.js:606-610 | `hasMatch` holds exactly when a segment exists, which holds exactly when three equal occupied cells sit side by side in some row or column. |
| Clearing.ScoreDelta | js/main.js:614-622 | With every segment at least three long, the delta lies between 100 and 300 per segment. |
| Clearing.ScoreDeltaAppend | js/main.js:614-622 | The score delta of a concatenation is the sum of the two deltas, so the order and grouping of segments do not matter. |
| Clearing.MatchScore | js/main.js:641-658 | The delta of a match result lies between 100 and 300 per segment, and it is positive exactly when `hasMatch` holds. |
| Clearing.Promote | js/main.js:641-656 | After the promotion loop, a cell is still marked exactly when it was marked and is not the middle cell (index floor(len/2)) of a segment of five or more. |
| Clearing.ClearMatched | js/main.js:641-687 | Every promotion site keeps its occupied kind, even when another segment crosses it. Every other marked cell becomes EMPTY, and unmarked cells are untouched. |
| Gravity.OccupiedLength | js/main.js:729-737 | Each cell of a column is either kept as occupied or counted as empty. |
| Gravity.OccupiedConserves | js/main.js:729-753 | The compacted column is a permutation of the original column, with the EMPTY cells moved to the top. |
| Gravity.CollapseColumn | js/main.js:726-753 | The bottom-up loop returns `emptyCount` EMPTY cells on top, followed by the occupied cells in their original order, with `emptyCount` the number of EMPTY cells. |
| Gravity.Refill | js/main.js:755-785 | A collapsed column refilled with kinds holds no EMPTY cell. The placement of the draws is stated against the occupied cells by `Gravity.SettleColumn`. |
| Gravity.SettleColumn | js/main.js:726-785 | After collapse and refill, a column is the first `emptyCount` draws followed by its occupied cells, and exactly `emptyCount` draws are used. |
| Gravity.CollapseAndRefill | js/main.js:722-786 | Column c becomes its share of the draw stream, in column order, followed by its occupied cells in order. No cell is left EMPTY, and exactly as many draws are used as there were EMPTY cells. |
| Gravity.DropLands | js/main.js:732-737 | The tile at row r of a column lands at row r plus the number of EMPTY cells below it. |
| Gravity.TilesFall | js/main.js:725-753 | Every tile of the board falls straight down in its column, never up, and keeps its kind. |
| Moves.WillMatchAfterSwap | js/main.js:811-816 | The probe hands back the unchanged board. Its verdict is whether the swapped board has three equal occupied cells in a line. |
| Moves.HasPossibleMoves | js/main.js:795-809 | The scan answers true exactly when swapping some cell with its right or lower neighbour lines up three equal cells, and the board is unchanged afterwards. |
| Moves.OnTileClicked | js/main.js:286-321 | A swap is requested exactly when a different, adjacent cell was selected, and the selection is then dropped; the pair handed on is at Manhattan distance 1. Otherwise a click on the selected cell deselects it, and any other click selects the clicked cell. |
| Generate.Completes | js/main.js:231-243 | On a row that is clean so far, the test rejects a kind exactly when appending it would put three equal cells side by side in the row or down the column. |
| Generate.DrawKind | js/main.js:227-246 | The retry loop returns the first draw that passes the test, and every draw it skipped was rejected. It fails only when every remaining draw is rejected and the stream is exhausted. When every three consecutive draws are different kinds and three draws are left, it succeeds within three draws. |
| Generate.FillRow | js/main.js:226-248 | A filled row holds eight kinds and adds no line of three along the row or down any column. Each cell is the first draw, after the previous cell's, that passes the test against the cells to its left and the rows above. Every draw skipped in between fails that test, and the draws used end at the last accepted one. It fails only once the stream is exhausted. When every three consecutive draws are different kinds and three draws per cell are left, it succeeds within 24 draws. |
| Generate.CleanNoTriple | js/main.js:224-249 | A board built row by row under the rejection test holds no three equal cells in a line. |
| Generate.InitBoard | js/main.js:222-250 | A result is a full 8 x 8 board of kinds with no line of three and no match. It is drawn from the stream row by row and cell by cell: each cell is the first later draw that passes the test, and every draw skipped was rejected. A failure has consumed every draw. When every three consecutive draws are different kinds and there are at least 192 draws, it succeeds within 192 draws. |
| Special.ChooseRoles | js/main.js:440-452 | The roles are the two tiles in some order. A flagged first tile is always the special one, and a flagged second tile is the special one unless the first is flagged too. |
| Special.KindCells | js/main.js:461-469 | The scan lists exactly the cells holding the target kind, in row-major order, each once. |
| Special.Dedupe | js/main.js:475-482 | The filtered list is never longer than the list it filters. |
| Special.DedupeExact | js/main.js:475-482 | The filter keeps exactly the cells not seen before, each once. |
| Special.DistinctMembers | js/main.js:475-485 | A list without repeats has as many distinct cells as entries, so 100 points per entry is 100 points per cleared cell. |
| Special.SpecialClear | js/main.js:435-485 | The clear list holds exactly the two swapped cells and every cell of the other tile's kind, each once, and the gain is 100 per cell. |
| Special.ClearCells | js/main.js:497-514 | The listed cells become EMPTY and every other cell keeps its contents. |
| Scoring.UpdateScoreText | js/main.js:912-923 | The best score becomes the larger of the best score and the score. Nothing else changes. |
| Scoring.AddScore | js/main.js:658-659 | The score grows by the gain, the best score keeps up with it, and a consistent session stays consistent. |
| Scoring.EggsFrom | js/main.js:889-894 | From index i on, the loop sets each unplayed flag whose threshold is reached and reports those cues once each, in threshold order. |
| Scoring.CheckEgg | js/main.js:887-895 | When enabled, a cue fires exactly when it has not played and the score has reached its threshold, in threshold order, and its flag is set. When disabled, nothing changes. |
| Scoring.CheckEggIdempotent | js/main.js:887-895 | A second check at the same score fires nothing and changes nothing. |
| Scoring.CueOncePerGame | js/main.js:887-895 | Along any run of scoring steps within one game, each adding points and then checking the cues, no cue fires twice, no cue that had already played fires, and a played cue stays played. So each cue plays at most once per game. |
| Scoring.CheckSpecialWin | js/main.js:823-845 | The game is won exactly when the score reaches 155800. A win records the best score, which is then at least 155800, and starts a fresh game with score 0 and the cues re-armed. Below the target nothing changes. |
| Scoring.OnGameOver | js/main.js:848-863 | The best score is recorded. The new game starts with score 0, the cues re-armed and a consistent session. |
| Scoring.ResetGame | js/main.js:865-885 | The new game starts with score 0 and the cues re-armed, and the best score is kept. |
| Engine.Score | js/main.js:658-665 | The shared scoring tail (add, update the best score, check the cues, check the win): it wins exactly when the new score reaches the target, and cues fire exactly for the thresholds newly reached. |
| Engine.NewGame | js/main.js:254-283 | A regenerated board is full of kinds, has no line of three and carries no special tile, and the session is kept. The board is the one the rejection loop draws from the stream. It fails only once every draw is consumed, and a varied stream of 192 draws never fails. |
| Engine.ResetGame | js/main.js:865-885 | The result is a fresh session with the best score kept, no special tiles and a board with no line of three. The only exception is an exhausted stream, which leaves the game unchanged. A varied stream of 192 draws always resets. |
| Engine.Drop | js/main.js:706-792 | Collapse and refill succeed exactly when there are enough draws. Each column becomes its share of the draws on top of its surviving tiles, exactly one draw per EMPTY cell is used, every tile keeps its kind where it lands, and the special flags move with their tiles. |
| Engine.SurvivingSpecials | js/main.js:641-703 | A cell is flagged after a match clearing exactly when it is a promotion site, or it was flagged and findMatches did not mark it. Every flagged cell still holds a tile. |
| Engine.HandleMatchesOnce | js/main.js:629-719 | With no match, it goes idle exactly when some swap would match, and otherwise ends the game. With a match, it adds the segments' score (at least 100). A win leaves score 0 and a best score of at least 155800. A win or a game over leaves a new board with no line of three and no special tile. Otherwise the board is the cleared board collapsed and refilled from the draws, column by column, one draw per EMPTY cell. The flags are the surviving special tiles and promotion sites, carried to where they fall, and each promotion site keeps its kind. The game state stays valid and the best score never drops. The cues reported are none without a match, and otherwise exactly those the scoring tail fires for the segments' score. |
| Engine.Cascade | js/main.js:706-718 | Repeated cycles keep the game valid and never lower the best score, nor the score while the game goes on. A quiet board has no match but has a matching swap. A win or a game over leaves a new board with no line of three and no special tile. |
| Engine.TriggerSpecialClear | js/main.js:435-518 | The score grows by exactly 100 per cell of the clear set. A win leaves score 0, a best score of at least 155800, and a new board with no line of three and no special tile. Otherwise the board is the blasted board collapsed and refilled from the draws, one draw per EMPTY cell, and the flags of cleared cells are dropped while the others fall with their tiles. The cues reported are exactly those the scoring tail fires for that gain. |
| Engine.ClearAndDrop | js/main.js:497-518 | Emptying the clear list gives the blasted board, which then collapses and refills exactly when the draws suffice, keeping the flags of the tiles not cleared. |
| Engine.SpecialSwap | js/main.js:435-528 | Unless the game ends, a special swap scores at least 100 points per cell of the clear set. It keeps the game valid and never lowers the best score, and a quiet result has no match but has a matching swap. A win or a game over leaves a new board with no line of three and no special tile. |
| Engine.ResolveBoard | js/main.js:625-627 | On a board holding a match, unless the game ends, the first cycle scores at least 100. A quiet result has no match but has a matching swap. A win or a game over leaves a new board with no line of three and no special tile. |
| Engine.PlainSwap | js/main.js:391-432 | The swap is rejected exactly when the exchanged board has no line of three, and then the game is exactly as before. An accepted swap that does not end the game scores at least 100, and a quiet result has no match but has a matching swap. A win or a game over leaves a new board with no line of three and no special tile. |
| Engine.TrySwap | js/main.js:361-433 | A swap is rejected, and changes nothing, exactly when neither tile is special and the exchange lines up no three equal cells. An accepted swap that does not end the game scores at least 100. A win or a game over leaves a new board with no line of three and no special tile. |

## Left out

- Rendering, sprites, tweens, timers, the selection highlight, audio and
  alerts are not modelled. The cues that `checkEgg` would play are reported
  as a list of indices.
- Persistence of the best score (`loadHighScore`, `saveHighScore`,
  localStorage) is left out. The best score is a field of the session.
- The busy and pause guards (`isHandling`, `isPaused`), `setPaused` and the
  sound toggles are left out, because they only decide whether input is
  accepted. The `checkEgg` toggle is a parameter (`eggEnabled`).
- The sprite lookup in `trySwap` that fails with a console warning is left
  out. With a valid board, every cell has a tile.
- `Phaser.Math.Between(0, TILE_TYPES - 1)` is modelled as a stream of draws
  that are all kinds in [0, 4). The random distribution itself is not modelled.
- Generate.InitBoard: the rejection loop of the source retries forever. The
  model stops when the draw stream runs out and returns `None`. Success is
  promised only for a varied stream, where every three consecutive draws are
  different kinds, of at least three draws per cell. Other streams that last
  are not characterised.
- Special.Dedupe: its own contract states only that the filter never
  lengthens the list; which cells it keeps, each once, is stated by
  `Special.DedupeExact`, because a recursive contract saying so costs the
  proofs about the filter far more.
- Engine.HandleMatchesOnce: the `Exhausted` status only reports that the draw
  stream ran out, and the game is then returned unchanged.
- Engine.Cascade: the program recurses through callbacks until the board is
  quiet. The model runs at most `fuel` cycles and may stop with `Cascading`,
  so it states no termination of the cascade.
- Engine.TrySwap, Engine.SpecialSwap, Engine.ResolveBoard: the same fuel bound
  and draw stream apply.
- The selection is not part of the game state, so the reset of the selection
  when a new board's sprites are built (`buildSprites`, js/main.js:259) is not
  modelled; `Moves.OnTileClicked` models the selection on its own.
- Engine.Drop: the sprite rows are not modelled. A special tile is tracked by
  the cell it lands on (`Gravity.Fall`).

Behaviour of the code that the model keeps as written:

- A special tile keeps its ordinary kind in the grid, so `findMatches`
  matches it like any other tile and an ordinary match can clear it.
- When both swapped tiles are special, the first tile acts as the special one
  and the target is the second tile's kind.
- A special trigger does not exchange the two tiles. Only the ordinary path of
  `trySwap` calls `swapInBoard`.

=== FILE: board.dfy ===
/** The grid of the match-3 rules engine: ROWS x COLS cells, each holding a tile
    kind in [0, TILE_TYPES) or EMPTY (-1). Cells are addressed by (row, column),
    row 0 at the top. */
module Board {

  const ROWS: int := 8
  const COLS: int := 8
  const TILE_TYPES: int := 4
  const EMPTY: int := -1

  datatype Option<T> = None | Some(value: T)

  datatype Cell = Cell(r: int, c: int)

  type Grid = seq<seq<int>>

  /** The grid always has exactly ROWS rows of COLS cells. */
  predicate WellFormed(b: Grid) {
    |b| == ROWS && forall r :: 0 <= r < ROWS ==> |b[r]| == COLS
  }

  predicate InBounds(p: Cell) {
    0 <= p.r < ROWS && 0 <= p.c < COLS
  }

  /** An ordinary tile kind, as drawn by the random source. */
  predicate IsKind(v: int) {
    0 <= v < TILE_TYPES
  }

  /** No cell of the grid is empty. */
  predicate Full(b: Grid)
    requires WellFormed(b)
  {
    forall r, c :: 0 <= r < ROWS && 0 <= c < COLS ==> b[r][c] != EMPTY
  }

  /** Every cell holds an ordinary kind: the state of a settled board. */
  predicate Kinds(b: Grid)
    requires WellFormed(b)
  {
    forall r, c :: 0 <= r < ROWS && 0 <= c < COLS ==> IsKind(b[r][c])
  }

  /** Every cell holds an ordinary kind or is EMPTY: the state between the
      clearing step and the refill. */
  predicate KindsOrEmpty(b: Grid)
    requires WellFormed(b)
  {
    forall r, c :: 0 <= r < ROWS && 0 <= c < COLS ==> IsKind(b[r][c]) || b[r][c] == EMPTY
  }

  function Get(b: Grid, p: Cell): int
    requires WellFormed(b) && InBounds(p)
  {
    b[p.r][p.c]
  }

  function Set(b: Grid, p: Cell, v: int): (b': Grid)
    requires WellFormed(b) && InBounds(p)
    ensures WellFormed(b')
    ensures Get(b', p) == v
    ensures forall q :: InBounds(q) && q != p ==> Get(b', q) == Get(b, q)
  {
    b[p.r := b[p.r][p.c := v]]
  }

  /** Column c read top to bottom. */
  function Column(b: Grid, c: int): (col: seq<int>)
    requires WellFormed(b) && 0 <= c < COLS
    ensures |col| == ROWS
    ensures forall r :: 0 <= r < ROWS ==> col[r] == b[r][c]
  {
    seq(ROWS, r requires 0 <= r < ROWS => b[r][c])
  }

  /** Two well-formed grids that agree on every cell are equal. */
  lemma GridExtensional(a: Grid, b: Grid)
    requires WellFormed(a) && WellFormed(b)
    requires forall p :: InBounds(p) ==> Get(a, p) == Get(b, p)
    ensures a == b
  {
    forall r | 0 <= r < ROWS
      ensures a[r] == b[r]
    {
      forall c | 0 <= c < COLS
        ensures a[r][c] == b[r][c]
      {
        assert Get(a, Cell(r, c)) == Get(b, Cell(r, c));
      }
    }
  }

  /** swapInBoard: exchange the contents of two cells (not necessarily adjacent). */
  function Swap(b: Grid, p: Cell, q: Cell): (b': Grid)
    requires WellFormed(b) && InBounds(p) && InBounds(q)
    ensures WellFormed(b')
    ensures Get(b', p) == Get(b, q) && Get(b', q) == Get(b, p)
    ensures forall x :: InBounds(x) && x != p && x != q ==> Get(b', x) == Get(b, x)
  {
    var tmp := Get(b, p);
    Set(Set(b, p, Get(b, q)), q, tmp)
  }

  /** Swapping the same two cells twice restores the grid exactly. */
  lemma SwapInvolution(b: Grid, p: Cell, q: Cell)
    requires WellFormed(b) && InBounds(p) && InBounds(q)
    ensures Swap(Swap(b, p, q), p, q) == b
  {
    GridExtensional(Swap(Swap(b, p, q), p, q), b);
  }

  /** Swapping two cells of a board of kinds leaves a board of kinds. */
  lemma SwapKinds(b: Grid, p: Cell, q: Cell)
    requires WellFormed(b) && Kinds(b) && InBounds(p) && InBounds(q)
    ensures Kinds(Swap(b, p, q))
  {
    var b' := Swap(b, p, q);
    forall r, c | 0 <= r < ROWS && 0 <= c < COLS
      ensures IsKind(b'[r][c])
    {
      assert b'[r][c] == Get(b', Cell(r, c));
    }
  }

  /** The order of the two cells does not matter. */
  lemma SwapSymmetric(b: Grid, p: Cell, q: Cell)
    requires WellFormed(b) && InBounds(p) && InBounds(q)
    ensures Swap(b, p, q) == Swap(b, q, p)
  {
    GridExtensional(Swap(b, p, q), Swap(b, q, p));
  }

  function Abs(x: int): nat {
    if x < 0 then -x else x
  }

  /** The adjacency test applied to a pair of clicked cells: the cells are
      exactly those at Manhattan distance 1. */
  function Adjacent(p: Cell, q: Cell): (adj: bool)
    ensures adj <==> Abs(p.r - q.r) + Abs(p.c - q.c) == 1
  {
    (p.r == q.r && Abs(p.c - q.c) == 1) || (p.c == q.c && Abs(p.r - q.r) == 1)
  }
}

=== FILE: clearing.dfy ===
/** The board and score half of one settle cycle (handleMatchesOnce, and the
    scoring rule of calcScoreDelta): a flat award per segment, promotion of
    the middle cell of every segment of five or more, and clearing of every
    other marked cell. */
module Clearing {
  import opened Board
  import opened Matches

  const SCORE_3: nat := 100
  const SCORE_4: nat := 200
  const SCORE_5: nat := 300

  /** The flat award for one segment of the given length. */
  function Award(len: nat): nat {
    if len == 3 then SCORE_3
    else if len == 4 then SCORE_4
    else if len >= 5 then SCORE_5
    else 0
  }

  /** calcScoreDelta: the awards of all segments, summed. With every segment
      at least three long, each contributes between the length-3 and the
      length-5 award. */
  function ScoreDelta(segs: seq<Segment>): (d: nat)
    ensures (forall t :: 0 <= t < |segs| ==> segs[t].len >= 3) ==>
      SCORE_3 * |segs| <= d <= SCORE_5 * |segs|
    decreases |segs|
  {
    if |segs| == 0 then 0
    else
      assert forall t :: 0 <= t < |segs| - 1 ==> segs[1..][t] == segs[t + 1];
      Award(segs[0].len) + ScoreDelta(segs[1..])
  }

  /** The total does not depend on how the segments are split or grouped. */
  lemma {:induction false} ScoreDeltaAppend(x: seq<Segment>, y: seq<Segment>)
    ensures ScoreDelta(x + y) == ScoreDelta(x) + ScoreDelta(y)
    decreases |x|
  {
    if |x| > 0 {
      assert (x + y)[1..] == x[1..] + y;
      ScoreDeltaAppend(x[1..], y);
    } else {
      assert x + y == y;
    }
  }

  /** Sound segments each score between the length-3 and the length-5 award. */
  lemma SoundScore(b: Grid, segs: seq<Segment>)
    requires WellFormed(b) && AllSound(b, segs)
    ensures SCORE_3 * |segs| <= ScoreDelta(segs) <= SCORE_5 * |segs|
  {
    assert forall t :: 0 <= t < |segs| ==> SegmentSound(b, segs[t]);
  }

  /** The score delta of a match result: at least 100 per segment, so positive
      whenever findMatches reports a match. */
  lemma MatchScore(b: Grid)
    requires WellFormed(b)
    ensures var m := FindMatches(b);
      SCORE_3 * |m.segments| <= ScoreDelta(m.segments) <= SCORE_5 * |m.segments|
    ensures FindMatches(b).hasMatch <==> ScoreDelta(FindMatches(b).segments) > 0
  {
    var m := FindMatches(b);
    SegmentsSound(b);
    SoundScore(b, m.segments);
    HasMatchIffTriple(b);
  }

  // ----- Promotion -----

  /** A segment whose length matches its cell list and whose cells are on the board. */
  predicate Shaped(seg: Segment) {
    |seg.cells| == seg.len && forall k :: 0 <= k < |seg.cells| ==> InBounds(seg.cells[k])
  }

  /** The cell a segment of five or more keeps: index floor(length / 2) of its
      cell list. */
  function Site(seg: Segment): Cell
    requires |seg.cells| > 0
  {
    seg.cells[|seg.cells| / 2]
  }

  /** The promotion sites of all segments of five or more. */
  function PromotionSites(segs: seq<Segment>): set<Cell> {
    set t | 0 <= t < |segs| && segs[t].len >= 5 && |segs[t].cells| > 0 :: Site(segs[t])
  }

  lemma PromotionSitesCons(segs: seq<Segment>)
    requires |segs| > 0
    ensures PromotionSites(segs) ==
      (if segs[0].len >= 5 && |segs[0].cells| > 0 then {Site(segs[0])} else {}) + PromotionSites(segs[1..])
  {
    var rest := segs[1..];
    forall p | p in PromotionSites(segs)
      ensures p in (if segs[0].len >= 5 && |segs[0].cells| > 0 then {Site(segs[0])} else {}) + PromotionSites(rest)
    {
      var t :| 0 <= t < |segs| && segs[t].len >= 5 && |segs[t].cells| > 0 && p == Site(segs[t]);
      if t > 0 {
        assert segs[t] == rest[t - 1];
      }
    }
    forall p | p in PromotionSites(rest)
      ensures p in PromotionSites(segs)
    {
      var t :| 0 <= t < |rest| && rest[t].len >= 5 && |rest[t].cells| > 0 && p == Site(rest[t]);
      assert rest[t] == segs[t + 1];
    }
  }

  function Unmark(marks: seq<seq<bool>>, p: Cell): (out: seq<seq<bool>>)
    requires MaskShape(marks) && InBounds(p)
    ensures MaskShape(out)
  {
    marks[p.r := marks[p.r][p.c := false]]
  }

  /** The promotion loop of handleMatchesOnce: for each segment of five or
      more, in order, its middle cell is unmarked. */
  function Promote(marks: seq<seq<bool>>, segs: seq<Segment>): (out: seq<seq<bool>>)
    requires MaskShape(marks)
    requires forall t :: 0 <= t < |segs| ==> Shaped(segs[t])
    ensures MaskShape(out)
    ensures forall r, c :: 0 <= r < ROWS && 0 <= c < COLS ==>
      (out[r][c] <==> marks[r][c] && Cell(r, c) !in PromotionSites(segs))
    decreases |segs|
  {
    if |segs| == 0 then marks
    else
      var seg := segs[0];
      assert Shaped(seg);
      var marks' := if seg.len >= 5 then Unmark(marks, Site(seg)) else marks;
      PromotionSitesCons(segs);
      Promote(marks', segs[1..])
  }

  /** Set every cell of the mask to EMPTY. */
  function ClearMask(b: Grid, mask: seq<seq<bool>>): (b': Grid)
    requires WellFormed(b) && MaskShape(mask)
    ensures WellFormed(b')
    ensures forall r, c :: 0 <= r < ROWS && 0 <= c < COLS ==>
      b'[r][c] == (if mask[r][c] then EMPTY else b[r][c])
  {
    seq(ROWS, r requires 0 <= r < ROWS =>
      seq(COLS, c requires 0 <= c < COLS => if mask[r][c] then EMPTY else b[r][c]))
  }

  /** Facts about sound segments that the clearing step relies on. */
  lemma SoundSegmentsShaped(b: Grid, segs: seq<Segment>)
    requires WellFormed(b) && AllSound(b, segs)
    ensures forall t :: 0 <= t < |segs| ==> Shaped(segs[t])
    ensures forall t :: 0 <= t < |segs| && segs[t].len >= 5 ==>
      && InBounds(Site(segs[t]))
      && Get(b, Site(segs[t])) != EMPTY
      && Site(segs[t]) in PromotionSites(segs)
  {
    forall t | 0 <= t < |segs|
      ensures Shaped(segs[t])
      ensures segs[t].len >= 5 ==> InBounds(Site(segs[t])) && Get(b, Site(segs[t])) != EMPTY
    {
      assert SegmentSound(b, segs[t]);
      if segs[t].len >= 5 {
        var k := |segs[t].cells| / 2;
        assert InBounds(segs[t].cells[k]);
        assert Get(b, segs[t].cells[k]) == Get(b, segs[t].cells[0]);
      }
    }
  }

  /** Clearing a mask with the promotion sites of sound segments removed. */
  lemma PromotedClear(b: Grid, marks: seq<seq<bool>>, segs: seq<Segment>)
    requires WellFormed(b) && MaskShape(marks) && AllSound(b, segs)
    ensures forall t :: 0 <= t < |segs| ==> Shaped(segs[t])
    ensures forall p :: p in PromotionSites(segs) ==>
      InBounds(p) && Get(ClearMask(b, Promote(marks, segs)), p) == Get(b, p) != EMPTY
    ensures forall r, c :: 0 <= r < ROWS && 0 <= c < COLS ==>
      ClearMask(b, Promote(marks, segs))[r][c] ==
        (if marks[r][c] && Cell(r, c) !in PromotionSites(segs) then EMPTY else b[r][c])
  {
    SoundSegmentsShaped(b, segs);
  }

  /** The board after the clearing step of handleMatchesOnce: the promotion
      site of every segment of five or more keeps its (occupied) kind, even
      when another segment crosses it; every other marked cell becomes EMPTY;
      unmarked cells are untouched. */
  function ClearMatched(b: Grid): (b': Grid)
    requires WellFormed(b)
    ensures WellFormed(b')
    ensures forall p :: p in PromotionSites(FindMatches(b).segments) ==>
      InBounds(p) && Get(b', p) == Get(b, p) != EMPTY
    ensures forall r, c :: 0 <= r < ROWS && 0 <= c < COLS ==>
      b'[r][c] == (if FindMatches(b).marks[r][c] && Cell(r, c) !in PromotionSites(FindMatches(b).segments)
                   then EMPTY else b[r][c])
  {
    var m := FindMatches(b);
    SegmentsSound(b);
    PromotedClear(b, m.marks, m.segments);
    ClearMask(b, Promote(m.marks, m.segments))
  }
}

=== FILE: engine.dfy ===
/** The settle cycle and the swap: handleMatchesOnce (scoring, the cue check,
    the win check, clearing with promotion, collapse and refill), the cascade
    that repeats it until the board is quiet, and trySwap with its special
    and ordinary paths. Every random kind comes from one stream of draws, in
    the order the game consumes them. */
module Engine {
  import opened Board
  import opened Matches
  import opened Clearing
  import opened Gravity
  import opened Moves
  import opened Generate
  import opened Special
  import opened Scoring

  /** The board, the cells whose tiles carry the special flag, and the
      session. */
  datatype Game = Game(board: Grid, specials: set<Cell>, session: Session)

  /** What holds between moves: a full board of kinds, special flags only on
      board cells, and a consistent session. */
  predicate Valid(g: Game) {
    && WellFormed(g.board) && Kinds(g.board)
    && (forall p :: p in g.specials ==> InBounds(p))
    && Consistent(g.session)
  }

  /** How a step ended.
      Rejected: the swap made no match and was undone.
      Cascading: a cycle cleared tiles and the board must be checked again.
      Idle: no match and some swap would make one.
      GameOver: no match and no swap makes one; a new game has started.
      Won: the target score was reached; a new game has started.
      Exhausted: the stream of draws ran out. */
  datatype Status = Rejected | Cascading | Idle | GameOver | Won | Exhausted

  // ----- Shared steps -----

  /** The scoring tail shared by a match cycle and a special clear: add the
      gain and update the best score, check the cues, then check the win. */
  datatype Scored = Scored(session: Session, fired: seq<nat>, won: bool)

  function Score(s: Session, gain: nat, eggEnabled: bool): (x: Scored)
    requires Consistent(s)
    ensures Consistent(x.session)
    ensures x.won <==> s.score + gain >= TARGET_SCORE
    ensures x.session.highScore >= s.highScore
    ensures x.won ==> x.session.score == 0 && x.session.highScore >= TARGET_SCORE
    ensures !x.won ==> x.session.score == s.score + gain
    ensures forall k :: k in x.fired <==>
      eggEnabled && 0 <= k < EGG_COUNT && !s.eggPlayed[k] && s.score + gain >= EGG_THRESHOLDS[k]
  {
    var added := AddScore(s, gain);
    var egg := CheckEgg(added, eggEnabled);
    var win := CheckSpecialWin(egg.session);
    Scored(win.session, egg.fired, win.won)
  }

  /** The board regeneration after a win, a game over or a restart: initBoard
      and a fresh set of sprites, none of them special. None when the stream
      of draws runs out, which a varied stream of three draws per cell never
      does. */
  method NewGame(s: Session, draws: seq<int>) returns (g': Option<Game>, used: nat)
    requires Consistent(s) && forall i :: 0 <= i < |draws| ==> IsKind(draws[i])
    ensures used <= |draws|
    ensures g'.Some? ==>
      && Valid(g'.value) && g'.value.specials == {} && g'.value.session == s
      && !HasTriple(g'.value.board)
    ensures g'.None? ==> used == |draws|
    ensures Varied(draws) && 3 * ROWS * COLS <= |draws| ==> g'.Some?
    ensures g'.Some? ==>
      FullRows(g'.value.board) && exists poss :: Generated(draws, g'.value.board, poss, used)
  {
    var b, poss;
    b, used, poss := InitBoard(draws);
    g' := if b.Some? then Some(Game(b.value, {}, s)) else None;
  }

  /** resetGame: a new board and a new game that keeps the best score. The
      game is left as it was only when the stream of draws runs out. */
  method ResetGame(g: Game, draws: seq<int>) returns (g': Game, used: nat)
    requires Valid(g) && forall i :: 0 <= i < |draws| ==> IsKind(draws[i])
    ensures used <= |draws| && Valid(g')
    ensures (g' == g && used == |draws|) || (g'.session == Fresh(g.session.highScore) && g'.specials == {} && !HasTriple(g'.board))
    ensures Varied(draws) && 3 * ROWS * COLS <= |draws| ==>
      g'.session == Fresh(g.session.highScore) && g'.specials == {} && !HasTriple(g'.board)
  {
    var next;
    next, used := NewGame(Scoring.ResetGame(g.session), draws);
    g' := if next.Some? then next.value else g;
  }

  /** The special cells carried to where their tiles fall. */
  function FallAll(b: Grid, kept: set<Cell>): (moved: set<Cell>)
    requires WellFormed(b) && forall p :: p in kept ==> InBounds(p)
  {
    set p | p in kept :: Fall(b, p)
  }

  /** Collapse and refill after a clearing step, carrying the special flags of
      the surviving tiles down with them: each column becomes its share of
      the draws above its surviving tiles, and every surviving tile keeps its
      kind where it lands. None when the draws run out. */
  method Drop(cleared: Grid, kept: set<Cell>, s: Session, draws: seq<int>)
    returns (g': Option<Game>, used: nat)
    requires WellFormed(cleared) && KindsOrEmpty(cleared) && Consistent(s)
    requires forall p :: p in kept ==> InBounds(p) && Get(cleared, p) != EMPTY
    requires forall i :: 0 <= i < |draws| ==> IsKind(draws[i])
    ensures used <= |draws|
    ensures g'.Some? <==> |draws| >= EmptyTotal(cleared)
    ensures g'.Some? ==>
      && Valid(g'.value) && g'.value.session == s && used == EmptyTotal(cleared)
      && g'.value.specials == FallAll(cleared, kept)
    ensures g'.Some? ==> Settled(cleared, draws, g'.value.board)
    ensures g'.Some? ==> forall p :: InBounds(p) && Get(cleared, p) != EMPTY ==>
      Get(g'.value.board, Fall(cleared, p)) == Get(cleared, p)
  {
    if |draws| < EmptyTotal(cleared) {
      return None, 0;
    }
    var b';
    b', used := CollapseAndRefill(cleared, draws);
    TilesFall(cleared, draws, b');
    g' := Some(Game(b', FallAll(cleared, kept), s));
  }

  // ----- handleMatchesOnce -----

  /** The flagged cells after a match clearing: the special tiles still on
      the cleared board, plus the new promotion sites. A special tile is lost
      exactly when its cell is marked and is not a site, and every flagged
      cell still holds a tile. */
  function SurvivingSpecials(g: Game): (kept: set<Cell>)
    requires Valid(g)
    ensures forall p :: p in kept ==> InBounds(p) && Get(ClearMatched(g.board), p) != EMPTY
    ensures forall p :: p in kept <==>
      || p in PromotionSites(FindMatches(g.board).segments)
      || (p in g.specials && !FindMatches(g.board).marks[p.r][p.c])
  {
    var m := FindMatches(g.board);
    var sites := PromotionSites(m.segments);
    var cleared := ClearMatched(g.board);
    MaskSurvivors(g.board, m.marks, sites, cleared, g.specials);
    (set p | p in g.specials && Get(cleared, p) != EMPTY) + sites
  }

  /** Clearing a board of kinds by a mask that spares some sites, then
      keeping the flagged cells still holding a tile and adding the sites:
      a flagged cell is kept exactly when it is unmarked or a site. */
  lemma MaskSurvivors(b: Grid, marks: seq<seq<bool>>, sites: set<Cell>, cleared: Grid, specials: set<Cell>)
    requires WellFormed(b) && Kinds(b) && WellFormed(cleared) && MaskShape(marks)
    requires forall p :: p in specials ==> InBounds(p)
    requires forall p :: p in sites ==> InBounds(p) && Get(cleared, p) != EMPTY
    requires forall r, c :: 0 <= r < ROWS && 0 <= c < COLS ==>
      cleared[r][c] == if marks[r][c] && Cell(r, c) !in sites then EMPTY else b[r][c]
    ensures forall p :: p in (set q | q in specials && Get(cleared, q) != EMPTY) + sites ==>
      InBounds(p) && Get(cleared, p) != EMPTY
    ensures forall p :: p in (set q | q in specials && Get(cleared, q) != EMPTY) + sites <==>
      p in sites || (p in specials && InBounds(p) && !marks[p.r][p.c])
  {
    forall p | p in specials
      ensures Get(cleared, p) == EMPTY <==> marks[p.r][p.c] && p !in sites
    {
      assert cleared[p.r][p.c] == if marks[p.r][p.c] && Cell(p.r, p.c) !in sites then EMPTY else b[p.r][p.c];
      assert IsKind(b[p.r][p.c]);
    }
  }

  /** handleMatchesOnce. With no match on the board the handler goes idle,
      or ends the game when no swap would make a match. With a match it
      scores every segment, checks the cues and the win, clears every marked
      cell except the promotion sites, whose tiles become special, and
      collapses and refills the board. */
  method HandleMatchesOnce(g: Game, eggEnabled: bool, draws: seq<int>)
    returns (g': Game, status: Status, used: nat, fired: seq<nat>)
    requires Valid(g) && forall i :: 0 <= i < |draws| ==> IsKind(draws[i])
    ensures used <= |draws|
    ensures status != Rejected
    ensures Valid(g') && g'.session.highScore >= g.session.highScore
    ensures status == Exhausted ==> g' == g
    ensures status == Idle <==> !HasTriple(g.board) && SomeSwapMatches(g.board)
    ensures status == Idle ==> g' == g
    ensures status == GameOver ==>
      && !HasTriple(g.board) && !SomeSwapMatches(g.board)
      && g'.session == OnGameOver(g.session) && !HasTriple(g'.board)
    ensures status == Cascading || status == Won ==> HasTriple(g.board)
    ensures !HasTriple(g.board) ==> fired == []
    ensures HasTriple(g.board) ==>
      fired == Score(g.session, ScoreDelta(FindMatches(g.board).segments), eggEnabled).fired
    ensures status == Cascading ==>
      && g'.session.score == g.session.score + ScoreDelta(FindMatches(g.board).segments)
      && g'.session.score >= g.session.score + SCORE_3
    ensures status == Won ==> g'.session.score == 0 && g'.session.highScore >= TARGET_SCORE
    ensures status == Won || status == GameOver ==> g'.specials == {} && !HasTriple(g'.board)
    ensures status == Cascading ==>
      && used == EmptyTotal(ClearMatched(g.board))
      && Settled(ClearMatched(g.board), draws, g'.board)
      && g'.specials == FallAll(ClearMatched(g.board), SurvivingSpecials(g))
    ensures status == Cascading ==>
      forall p :: p in PromotionSites(FindMatches(g.board).segments) ==>
        && InBounds(p)
        && Fall(ClearMatched(g.board), p) in g'.specials
        && Get(g'.board, Fall(ClearMatched(g.board), p)) == Get(g.board, p)
  {
    var m := FindMatches(g.board);
    HasMatchIffTriple(g.board);
    fired := [];
    if !m.hasMatch {
      var found, _ := HasPossibleMoves(g.board);
      if found {
        return g, Idle, 0, [];
      }
      var next;
      next, used := NewGame(OnGameOver(g.session), draws);
      g', status := if next.Some? then next.value else g, if next.Some? then GameOver else Exhausted;
      return;
    }
    MatchScore(g.board);
    var x := Score(g.session, ScoreDelta(m.segments), eggEnabled);
    fired := x.fired;
    if x.won {
      var next;
      next, used := NewGame(x.session, draws);
      g', status := if next.Some? then next.value else g, if next.Some? then Won else Exhausted;
      return;
    }
    var cleared := ClearMatched(g.board);
    var kept := SurvivingSpecials(g);
    var next;
    next, used := Drop(cleared, kept, x.session, draws);
    if next.None? {
      return g, Exhausted, used, fired;
    }
    g', status := next.value, Cascading;
  }

  // ----- The cascade and trySwap -----

  /** The cascade: handleMatchesOnce runs again after every cycle that
      cleared tiles, until the board is quiet, the game ends, or fuel cycles
      have run. The best score never drops; while the game goes on the score
      never drops; a quiet board has no match and some swap that makes one. */
  method Cascade(g: Game, eggEnabled: bool, draws: seq<int>, fuel: nat)
    returns (g': Game, status: Status, used: nat)
    requires Valid(g) && forall i :: 0 <= i < |draws| ==> IsKind(draws[i])
    ensures used <= |draws| && Valid(g') && status != Rejected
    ensures g'.session.highScore >= g.session.highScore
    ensures status == Cascading || status == Idle || status == Exhausted ==>
      g'.session.score >= g.session.score
    ensures status == Idle ==> !HasTriple(g'.board) && SomeSwapMatches(g'.board)
    ensures status == GameOver ==> g'.session.score == 0 && !HasTriple(g'.board)
    ensures status == Won ==> g'.session.score == 0 && g'.session.highScore >= TARGET_SCORE
    ensures status == Won || status == GameOver ==> g'.specials == {} && !HasTriple(g'.board)
  {
    g', status, used := g, Cascading, 0;
    var n := 0;
    while status == Cascading && n < fuel
      invariant 0 <= n <= fuel && used <= |draws| && Valid(g') && status != Rejected
      invariant g'.session.highScore >= g.session.highScore
      invariant status == Cascading || status == Idle || status == Exhausted ==>
        g'.session.score >= g.session.score
      invariant status == Idle ==> !HasTriple(g'.board) && SomeSwapMatches(g'.board)
      invariant status == GameOver ==> g'.session.score == 0 && !HasTriple(g'.board)
      invariant status == Won ==> g'.session.score == 0 && g'.session.highScore >= TARGET_SCORE
      invariant status == Won || status == GameOver ==> g'.specials == {} && !HasTriple(g'.board)
      decreases fuel - n
    {
      var next, st, u, _ := HandleMatchesOnce(g', eggEnabled, draws[used..]);
      g', status, used := next, st, used + u;
      n := n + 1;
    }
  }

  /** The cells a special swap clears: both swapped cells and every cell
      holding the kind of the tile that does not act as the special one. */
  function ClearSet(g: Game, a: Cell, c: Cell): (cells: set<Cell>)
    requires Valid(g) && InBounds(a) && InBounds(c)
    ensures forall p :: p in cells <==>
      || p == a || p == c
      || (InBounds(p) && Get(g.board, p) == Get(g.board, ChooseRoles(a, c, a in g.specials, c in g.specials).other))
  {
    var target := Get(g.board, ChooseRoles(a, c, a in g.specials, c in g.specials).other);
    {a, c} + set r, k | 0 <= r < ROWS && 0 <= k < COLS && g.board[r][k] == target :: Cell(r, k)
  }

  /** The board once a special swap has emptied its clear set. */
  function Blasted(g: Game, a: Cell, c: Cell): (b': Grid)
    requires Valid(g) && InBounds(a) && InBounds(c)
    ensures WellFormed(b') && KindsOrEmpty(b')
    ensures forall p :: InBounds(p) ==>
      Get(b', p) == if p in ClearSet(g, a, c) then EMPTY else Get(g.board, p)
  {
    var cells := ClearSet(g, a, c);
    seq(ROWS, r requires 0 <= r < ROWS =>
      seq(COLS, k requires 0 <= k < COLS =>
        if Cell(r, k) in cells then EMPTY else g.board[r][k]))
  }

  /** triggerSpecialClear up to the cascade: score 100 per cell of the clear
      set, check the cues and the win, empty the clear set, then collapse and
      refill. The flags of the cleared tiles are dropped and the others fall
      with their tiles. */
  method TriggerSpecialClear(g: Game, a: Cell, c: Cell, eggEnabled: bool, draws: seq<int>)
    returns (g': Game, status: Status, used: nat, fired: seq<nat>)
    requires Valid(g) && InBounds(a) && InBounds(c)
    requires forall i :: 0 <= i < |draws| ==> IsKind(draws[i])
    ensures used <= |draws| && Valid(g')
    ensures status == Cascading || status == Won || status == Exhausted
    ensures g'.session.highScore >= g.session.highScore
    ensures status == Exhausted ==> g' == g
    ensures status == Won ==> g'.session.score == 0 && g'.session.highScore >= TARGET_SCORE
    ensures status == Won ==> g'.specials == {} && !HasTriple(g'.board)
    ensures fired == Score(g.session, SCORE_PER_CELL * |ClearSet(g, a, c)|, eggEnabled).fired
    ensures status == Cascading ==>
      && g'.session.score == g.session.score + SCORE_PER_CELL * |ClearSet(g, a, c)| < TARGET_SCORE
      && used == EmptyTotal(Blasted(g, a, c))
      && Settled(Blasted(g, a, c), draws, g'.board)
      && g'.specials == FallAll(Blasted(g, a, c), g.specials - ClearSet(g, a, c))
  {
    var blast := SpecialClear(g.board, a, c, a in g.specials, c in g.specials);
    assert Members(blast.cells) == ClearSet(g, a, c);
    DistinctMembers(blast.cells);
    var x := Score(g.session, blast.gain, eggEnabled);
    fired := x.fired;
    var next;
    if x.won {
      next, used := NewGame(x.session, draws);
    } else {
      next, used := ClearAndDrop(g, a, c, blast.cells, x.session, draws);
    }
    g' := if next.Some? then next.value else g;
    status := if next.None? then Exhausted else if x.won then Won else Cascading;
  }

  /** The clearing half of triggerSpecialClear: every listed cell becomes
      EMPTY, then collapse and refill, keeping the flags of the tiles that
      were not cleared. None when the draws run out. */
  method ClearAndDrop(g: Game, a: Cell, c: Cell, cells: seq<Cell>, s: Session, draws: seq<int>)
    returns (g': Option<Game>, used: nat)
    requires Valid(g) && InBounds(a) && InBounds(c) && Consistent(s)
    requires Members(cells) == ClearSet(g, a, c)
    requires forall i :: 0 <= i < |draws| ==> IsKind(draws[i])
    ensures used <= |draws|
    ensures g'.Some? <==> |draws| >= EmptyTotal(Blasted(g, a, c))
    ensures g'.Some? ==>
      && Valid(g'.value) && g'.value.session == s
      && used == EmptyTotal(Blasted(g, a, c))
      && Settled(Blasted(g, a, c), draws, g'.value.board)
      && g'.value.specials == FallAll(Blasted(g, a, c), g.specials - ClearSet(g, a, c))
  {
    assert forall k :: 0 <= k < |cells| ==> cells[k] in Members(cells);
    var cleared := ClearCells(g.board, cells);
    GridExtensional(cleared, Blasted(g, a, c));
    g', used := Drop(cleared, g.specials - ClearSet(g, a, c), s, draws);
  }

  /** The special path of trySwap: triggerSpecialClear, then the cascade.
      Unless the game ends it scores at least 100 points per cell of the
      clear set. */
  method SpecialSwap(g: Game, a: Cell, c: Cell, eggEnabled: bool, draws: seq<int>, fuel: nat)
    returns (g': Game, status: Status, used: nat)
    requires Valid(g) && InBounds(a) && InBounds(c) && (a in g.specials || c in g.specials)
    requires forall i :: 0 <= i < |draws| ==> IsKind(draws[i])
    ensures used <= |draws| && Valid(g') && status != Rejected
    ensures g'.session.highScore >= g.session.highScore
    ensures status == Cascading || status == Idle ==>
      g'.session.score >= g.session.score + SCORE_PER_CELL * |ClearSet(g, a, c)|
    ensures status == Idle ==> !HasTriple(g'.board) && SomeSwapMatches(g'.board)
    ensures status == Won || status == GameOver ==> g'.specials == {} && !HasTriple(g'.board)
  {
    var mid, st, u, _ := TriggerSpecialClear(g, a, c, eggEnabled, draws);
    if st != Cascading {
      return mid, st, u;
    }
    var u2;
    g', status, u2 := Cascade(mid, eggEnabled, draws[u..], fuel);
    used := u + u2;
  }

  /** resolveBoard: the first cycle on a board known to hold a match, then
      the cascade. Unless the game ends, the first cycle alone scores at
      least 100 points. */
  method ResolveBoard(g: Game, eggEnabled: bool, draws: seq<int>, fuel: nat)
    returns (g': Game, status: Status, used: nat)
    requires Valid(g) && HasTriple(g.board)
    requires forall i :: 0 <= i < |draws| ==> IsKind(draws[i])
    ensures used <= |draws| && Valid(g') && status != Rejected
    ensures g'.session.highScore >= g.session.highScore
    ensures status == Cascading || status == Idle ==> g'.session.score >= g.session.score + SCORE_3
    ensures status == Idle ==> !HasTriple(g'.board) && SomeSwapMatches(g'.board)
    ensures status == Won || status == GameOver ==> g'.specials == {} && !HasTriple(g'.board)
  {
    var mid, st, u, _ := HandleMatchesOnce(g, eggEnabled, draws);
    if st != Cascading {
      return mid, st, u;
    }
    var u2;
    g', status, u2 := Cascade(mid, eggEnabled, draws[u..], fuel);
    used := u + u2;
  }

  /** The ordinary path of trySwap: exchange the two kinds; without a match
      undo the exchange, so nothing changes at all; with one, run the cycle
      and then the cascade. */
  method PlainSwap(g: Game, a: Cell, c: Cell, eggEnabled: bool, draws: seq<int>, fuel: nat)
    returns (g': Game, status: Status, used: nat)
    requires Valid(g) && InBounds(a) && InBounds(c)
    requires forall i :: 0 <= i < |draws| ==> IsKind(draws[i])
    ensures used <= |draws| && Valid(g')
    ensures g'.session.highScore >= g.session.highScore
    ensures status == Rejected <==> !HasTriple(Swap(g.board, a, c))
    ensures status == Rejected ==> g' == g
    ensures status == Cascading || status == Idle ==> g'.session.score >= g.session.score + SCORE_3
    ensures status == Idle ==> !HasTriple(g'.board) && SomeSwapMatches(g'.board)
    ensures status == Won || status == GameOver ==> g'.specials == {} && !HasTriple(g'.board)
  {
    var swapped := Swap(g.board, a, c);
    var matched := FindMatches(swapped).hasMatch;
    HasMatchIffTriple(swapped);
    if !matched {
      var restored := Swap(swapped, a, c);
      SwapInvolution(g.board, a, c);
      return g.(board := restored), Rejected, 0;
    }
    SwapKinds(g.board, a, c);
    g', status, used := ResolveBoard(Game(swapped, g.specials, g.session), eggEnabled, draws, fuel);
  }

  /** trySwap: the special path when either tile carries the flag, the
      ordinary path otherwise. A swap is rejected, and changes nothing,
      exactly when neither tile is special and the exchange lines up no three
      equal cells; every accepted swap that does not end the game scores at
      least 100 points. */
  method TrySwap(g: Game, a: Cell, c: Cell, eggEnabled: bool, draws: seq<int>, fuel: nat)
    returns (g': Game, status: Status, used: nat)
    requires Valid(g) && InBounds(a) && InBounds(c)
    requires forall i :: 0 <= i < |draws| ==> IsKind(draws[i])
    ensures used <= |draws| && Valid(g')
    ensures g'.session.highScore >= g.session.highScore
    ensures status == Rejected <==>
      a !in g.specials && c !in g.specials && !HasTriple(Swap(g.board, a, c))
    ensures status == Rejected ==> g' == g
    ensures status == Cascading || status == Idle ==> g'.session.score >= g.session.score + SCORE_3
    ensures status == Idle ==> !HasTriple(g'.board) && SomeSwapMatches(g'.board)
    ensures status == Won || status == GameOver ==> g'.specials == {} && !HasTriple(g'.board)
  {
    if a in g.specials || c in g.specials {
      g', status, used := SpecialSwap(g, a, c, eggEnabled, draws, fuel);
    } else {
      g', status, used := PlainSwap(g, a, c, eggEnabled, draws, fuel);
    }
  }
}

=== FILE: generate.dfy ===
/** initBoard: the board is filled row by row, left to right, and each cell
    draws kinds until one does not complete a line of three with the two
    cells to its left or the two cells above it. The random source is an
    explicit stream of draws; the model reports when the stream runs out. */
module Generate {
  import opened Board
  import opened Matches

  /** Rows all of full width, every cell a kind. */
  predicate FullRows(done: seq<seq<int>>) {
    forall i :: 0 <= i < |done| ==> |done[i]| == COLS && forall c :: 0 <= c < COLS ==> IsKind(done[i][c])
  }

  /** The rejection test for kind v at column c of row |done|: it would be the
      third equal cell after the two to its left in row, or below the two
      above it in the finished rows. */
  predicate RejectedAt(done: seq<seq<int>>, row: seq<int>, c: int, v: int)
    requires FullRows(done) && 0 <= c <= |row| && c < COLS
  {
    || (c >= 2 && v == row[c - 1] && v == row[c - 2])
    || (|done| >= 2 && v == done[|done| - 1][c] && v == done[|done| - 2][c])
  }

  /** The rejection test for kind v at row |done|, column |row|. On a row
      that is clean so far, it rejects exactly the kinds that would complete
      a line of three, along the row or down the column. */
  function Completes(done: seq<seq<int>>, row: seq<int>, v: int): (reject: bool)
    requires FullRows(done) && |row| < COLS
    ensures RowClean(row) && BelowClean(done, row) ==>
      (reject <==> !(RowClean(row + [v]) && BelowClean(done, row + [v])))
  {
    var r, c := |done|, |row|;
    var next := row + [v];
    assert next[c] == v && forall k :: 0 <= k < c ==> next[k] == row[k];
    RejectedAt(done, row, c, v)
  }

  /** No three equal cells side by side within a row. */
  ghost predicate RowClean(row: seq<int>) {
    forall c :: 0 <= c && c + 2 < |row| ==> !(row[c + 1] == row[c] && row[c + 2] == row[c])
  }

  /** Rows i, i + 1 and i + 2 hold the same kind in column c. */
  predicate Stacked(done: seq<seq<int>>, i: int, c: int)
    requires FullRows(done) && 0 <= i && i + 2 < |done| && 0 <= c < COLS
  {
    done[i + 1][c] == done[i][c] && done[i + 2][c] == done[i][c]
  }

  /** No three equal cells stacked in a column of the finished rows. */
  ghost predicate StackClean(done: seq<seq<int>>)
    requires FullRows(done)
  {
    forall i, c :: 0 <= i && i + 2 < |done| && 0 <= c < COLS ==> !Stacked(done, i, c)
  }

  /** The cells of the row being built do not complete a column of three
      with the two finished rows above them. */
  ghost predicate BelowClean(done: seq<seq<int>>, row: seq<int>)
    requires FullRows(done) && |row| <= COLS
  {
    |done| >= 2 ==> forall c :: 0 <= c < |row| ==>
      !(row[c] == done[|done| - 1][c] && row[c] == done[|done| - 2][c])
  }

  /** What the fill loop keeps: finished rows free of lines of three. */
  ghost predicate Clean(done: seq<seq<int>>)
    requires FullRows(done)
  {
    (forall i :: 0 <= i < |done| ==> RowClean(done[i])) && StackClean(done)
  }

  /** A finished row that is clean on its own and against the rows above
      keeps the board clean. */
  lemma AppendRow(done: seq<seq<int>>, row: seq<int>)
    requires FullRows(done) && Clean(done) && |row| == COLS
    requires forall c :: 0 <= c < COLS ==> IsKind(row[c])
    requires RowClean(row) && BelowClean(done, row)
    ensures FullRows(done + [row]) && Clean(done + [row])
  {
    var next := done + [row];
    assert next[|done|] == row;
    forall i, c | 0 <= i && i + 2 < |next| && 0 <= c < COLS
      ensures !Stacked(next, i, c)
    {
      if i + 2 == |done| {
        assert next[i] == done[|done| - 2] && next[i + 1] == done[|done| - 1];
      } else {
        assert next[i] == done[i] && next[i + 1] == done[i + 1] && next[i + 2] == done[i + 2];
        assert !Stacked(done, i, c);
      }
    }
    forall i | 0 <= i < |next|
      ensures RowClean(next[i])
    {
      if i < |done| {
        assert next[i] == done[i];
      }
    }
  }

  /** A full clean board is a well-formed board of kinds with no three equal
      cells in a line. */
  lemma CleanNoTriple(b: seq<seq<int>>)
    requires |b| == ROWS && FullRows(b) && Clean(b)
    ensures WellFormed(b) && Kinds(b)
    ensures !HasTriple(b)
  {
    forall r, c | 0 <= r < ROWS && 0 <= c && c + 2 < COLS
      ensures !RowTriple(b, r, c)
    {
      assert RowClean(b[r]);
    }
    forall r, c | 0 <= r && r + 2 < ROWS && 0 <= c < COLS
      ensures !ColumnTriple(b, r, c)
    {
      assert !Stacked(b, r, c);
    }
  }

  /** Every three consecutive draws are three different kinds: a stream on
      which no rejection loop needs more than three draws. */
  predicate Varied(draws: seq<int>) {
    forall i, j :: 0 <= i < j < |draws| && j <= i + 2 ==> draws[i] != draws[j]
  }

  /** Of three different kinds the rejection test turns away at most two. */
  lemma ThreeKindsNotAllRejected(done: seq<seq<int>>, row: seq<int>, x: int, y: int, z: int)
    requires FullRows(done) && |row| < COLS
    requires x != y && x != z && y != z
    ensures !(Completes(done, row, x) && Completes(done, row, y) && Completes(done, row, z))
  {
  }

  /** The rejection loop for one cell: draw kinds from the stream until one
      does not complete a line of three. The kind returned is the first
      acceptable draw; the loop fails only when every remaining draw is
      rejected, and on a varied stream it needs at most three draws. */
  method DrawKind(done: seq<seq<int>>, row: seq<int>, draws: seq<int>, used: nat) returns (v: Option<int>, used': nat)
    requires FullRows(done) && |row| < COLS && used <= |draws|
    requires forall i :: 0 <= i < |draws| ==> IsKind(draws[i])
    ensures used <= used' <= |draws|
    ensures v.None? ==> used' == |draws|
    ensures v.Some? ==> used < used' && v.value == draws[used' - 1] && IsKind(v.value) && !Completes(done, row, v.value)
    ensures v.Some? ==> forall i :: used <= i < used' - 1 ==> Completes(done, row, draws[i])
    ensures v.None? ==> forall i :: used <= i < |draws| ==> Completes(done, row, draws[i])
    ensures Varied(draws) && used + 3 <= |draws| ==> v.Some? && used' <= used + 3
  {
    if Varied(draws) && used + 3 <= |draws| {
      ThreeKindsNotAllRejected(done, row, draws[used], draws[used + 1], draws[used + 2]);
    }
    used' := used;
    while used' < |draws|
      invariant used <= used' <= |draws|
      invariant forall i :: used <= i < used' ==> Completes(done, row, draws[i])
      decreases |draws| - used'
    {
      var w := draws[used'];
      used' := used' + 1;
      if !Completes(done, row, w) {
        return Some(w), used';
      }
    }
    return None, used';
  }

  /** Where the rejection loop for cell c reads its first draw: at from for
      the first cell, just after the draw the previous cell accepted for the
      others. */
  function Start(from: nat, pos: seq<nat>, c: nat): nat
    requires c <= |pos|
  {
    if c == 0 then from else pos[c - 1] + 1
  }

  /** row was drawn from the stream by the rejection loop, starting at from:
      cell c holds the draw at pos[c], which passes the test against the
      cells to its left, and every draw the loop skipped before it fails the
      test. The positions are therefore strictly increasing. */
  ghost predicate Picked(done: seq<seq<int>>, row: seq<int>, draws: seq<int>, from: nat, pos: seq<nat>)
    requires FullRows(done) && |row| <= COLS
  {
    |pos| == |row| && forall c :: 0 <= c < |row| ==> PickedAt(done, row, draws, from, pos, c)
  }

  /** Cell c of a drawn row: the draw at pos[c] passes the test, and every
      draw between the previous cell's and it fails. */
  ghost predicate PickedAt(done: seq<seq<int>>, row: seq<int>, draws: seq<int>, from: nat, pos: seq<nat>, c: nat)
    requires FullRows(done) && |row| <= COLS && |pos| == |row| && c < |row|
  {
    && Start(from, pos, c) <= pos[c] < |draws| && row[c] == draws[pos[c]]
    && !RejectedAt(done, row, c, row[c])
    && forall i :: Start(from, pos, c) <= i < pos[c] ==> RejectedAt(done, row, c, draws[i])
  }

  /** Accepting draw k after rejecting every draw since the last accepted one
      extends a drawn row by one cell. */
  lemma PickedStep(done: seq<seq<int>>, row: seq<int>, draws: seq<int>, from: nat, pos: seq<nat>, k: nat)
    requires FullRows(done) && |row| < COLS && Picked(done, row, draws, from, pos)
    requires Start(from, pos, |row|) <= k < |draws| && !Completes(done, row, draws[k])
    requires forall i :: Start(from, pos, |row|) <= i < k ==> Completes(done, row, draws[i])
    ensures Picked(done, row + [draws[k]], draws, from, pos + [k])
  {
    var row', pos' := row + [draws[k]], pos + [k];
    forall c | 0 <= c < |row|
      ensures PickedAt(done, row', draws, from, pos', c)
    {
      assert PickedAt(done, row, draws, from, pos, c);
      assert row'[c] == row[c] && pos'[c] == pos[c] && Start(from, pos', c) == Start(from, pos, c);
      forall v ensures RejectedAt(done, row', c, v) == RejectedAt(done, row, c, v) {
        if c >= 2 {
          assert row'[c - 1] == row[c - 1] && row'[c - 2] == row[c - 2];
        }
      }
    }
    var n := |row|;
    assert Start(from, pos', n) == Start(from, pos, n);
    forall v ensures RejectedAt(done, row', n, v) == Completes(done, row, v) {
      if n >= 2 {
        assert row'[n - 1] == row[n - 1] && row'[n - 2] == row[n - 2];
      }
    }
    assert PickedAt(done, row', draws, from, pos', n);
  }

  /** One row of initBoard: each cell in turn, left to right. On success the
      row is full, made of kinds, and adds no line of three to the board; on
      a varied stream with three draws per cell left it always succeeds. */
  method FillRow(done: seq<seq<int>>, draws: seq<int>, used: nat)
    returns (row: Option<seq<int>>, used': nat, pos: seq<nat>)
    requires FullRows(done) && used <= |draws|
    requires forall i :: 0 <= i < |draws| ==> IsKind(draws[i])
    ensures used <= used' <= |draws|
    ensures row.None? ==> used' == |draws|
    ensures row.Some? ==> |row.value| == COLS && (forall c :: 0 <= c < COLS ==> IsKind(row.value[c]))
    ensures row.Some? ==> RowClean(row.value) && BelowClean(done, row.value)
    ensures row.Some? ==> |pos| == COLS && Picked(done, row.value, draws, used, pos) && used' == Start(used, pos, COLS)
    ensures Varied(draws) && used + 3 * COLS <= |draws| ==> row.Some? && used' <= used + 3 * COLS
  {
    var cells: seq<int> := [];
    used', pos := used, [];
    while |cells| < COLS
      invariant |cells| <= COLS && used <= used' <= |draws|
      invariant forall c :: 0 <= c < |cells| ==> IsKind(cells[c])
      invariant RowClean(cells) && BelowClean(done, cells)
      invariant Varied(draws) && used + 3 * COLS <= |draws| ==> used' <= used + 3 * |cells|
      invariant |pos| == |cells| && Picked(done, cells, draws, used, pos) && used' == Start(used, pos, |cells|)
      decreases COLS - |cells|
    {
      var v, next := DrawKind(done, cells, draws, used');
      if v.None? {
        return None, next, pos;
      }
      PickedStep(done, cells, draws, used, pos, next - 1);
      cells, pos, used' := cells + [v.value], pos + [next - 1], next;
    }
    return Some(cells), used', pos;
  }

  /** Where row r starts reading the stream: at the start for the first row,
      just after the last draw the previous row accepted for the others. */
  function RowStart(poss: seq<seq<nat>>, r: nat): nat
    requires r <= |poss| && forall i :: 0 <= i < |poss| ==> |poss[i]| == COLS
  {
    if r == 0 then 0 else poss[r - 1][COLS - 1] + 1
  }

  /** The board was drawn from the stream row by row, each row by the
      rejection loop against the rows above it, and used counts every draw up
      to the last one accepted. */
  ghost predicate Generated(draws: seq<int>, b: seq<seq<int>>, poss: seq<seq<nat>>, used: nat)
    requires FullRows(b)
  {
    && |poss| == |b| && (forall r :: 0 <= r < |poss| ==> |poss[r]| == COLS)
    && (forall r :: 0 <= r < |b| ==> RowPicked(draws, b, poss, r))
    && used == RowStart(poss, |b|)
  }

  /** Row r of a drawn board was drawn against the rows above it. */
  ghost predicate RowPicked(draws: seq<int>, b: seq<seq<int>>, poss: seq<seq<nat>>, r: nat)
    requires FullRows(b) && |poss| == |b| && (forall i :: 0 <= i < |poss| ==> |poss[i]| == COLS) && r < |b|
  {
    FullRows(b[..r]) && Picked(b[..r], b[r], draws, RowStart(poss, r), poss[r])
  }

  /** A drawn row appended to a drawn board gives a drawn board. */
  lemma GeneratedStep(draws: seq<int>, done: seq<seq<int>>, poss: seq<seq<nat>>, used: nat, row: seq<int>, pos: seq<nat>)
    requires FullRows(done) && Generated(draws, done, poss, used)
    requires |row| == COLS && (forall c :: 0 <= c < COLS ==> IsKind(row[c]))
    requires |pos| == COLS && Picked(done, row, draws, used, pos)
    ensures FullRows(done + [row]) && Generated(draws, done + [row], poss + [pos], Start(used, pos, COLS))
  {
    var done', poss' := done + [row], poss + [pos];
    assert done'[..|done|] == done;
    forall r | 0 <= r < |done|
      ensures RowPicked(draws, done', poss', r)
    {
      assert RowPicked(draws, done, poss, r);
      assert done'[..r] == done'[..|done|][..r];
      assert done'[r] == done[r] && poss'[r] == poss[r] && RowStart(poss', r) == RowStart(poss, r);
    }
    assert RowStart(poss', |done|) == used;
    assert RowPicked(draws, done', poss', |done|);
  }

  /** initBoard with its random source as a stream of draws. When the stream
      lasts, the result is a full board of kinds with no line of three, so
      findMatches reports nothing on it; when it runs out, every draw has
      been consumed. A varied stream of at least three draws per cell always
      lasts. */
  method InitBoard(draws: seq<int>) returns (b: Option<Grid>, used: nat, poss: seq<seq<nat>>)
    requires forall i :: 0 <= i < |draws| ==> IsKind(draws[i])
    ensures used <= |draws|
    ensures b.None? ==> used == |draws|
    ensures b.Some? ==> WellFormed(b.value) && Kinds(b.value) && !HasTriple(b.value)
    ensures b.Some? ==> !FindMatches(b.value).hasMatch
    ensures b.Some? ==> FullRows(b.value) && Generated(draws, b.value, poss, used)
    ensures Varied(draws) && 3 * ROWS * COLS <= |draws| ==> b.Some? && used <= 3 * ROWS * COLS
  {
    var done: seq<seq<int>> := [];
    used, poss := 0, [];
    while |done| < ROWS
      invariant |done| <= ROWS && used <= |draws|
      invariant FullRows(done) && Clean(done)
      invariant Varied(draws) && 3 * ROWS * COLS <= |draws| ==> used <= 3 * COLS * |done|
      invariant Generated(draws, done, poss, used)
      decreases ROWS - |done|
    {
      var row, next, pos := FillRow(done, draws, used);
      if row.None? {
        return None, next, poss;
      }
      AppendRow(done, row.value);
      GeneratedStep(draws, done, poss, used, row.value, pos);
      done, poss, used := done + [row.value], poss + [pos], next;
    }
    CleanNoTriple(done);
    HasMatchIffTriple(done);
    b := Some(done);
  }
}

=== FILE: gravity.dfy ===
/** The board half of collapseAndRefillWithAnimation: each column is compacted
    downwards, scanning from the bottom row up and moving every occupied cell
    down by the number of empty cells seen below it, and then the top
    emptyCount rows of the column are filled with freshly drawn kinds. */
module Gravity {
  import opened Board

  /** The occupied cells of a column, top to bottom. */
  function Occupied(col: seq<int>): seq<int> {
    if |col| == 0 then [] else (if col[0] == EMPTY then [] else [col[0]]) + Occupied(col[1..])
  }

  /** The number of empty cells of a column. */
  function CountEmpty(col: seq<int>): (n: nat)
    ensures n <= |col|
  {
    if |col| == 0 then 0 else (if col[0] == EMPTY then 1 else 0) + CountEmpty(col[1..])
  }

  function Repeat(v: int, n: nat): (r: seq<int>)
    ensures |r| == n && forall k :: 0 <= k < n ==> r[k] == v
  {
    if n == 0 then [] else [v] + Repeat(v, n - 1)
  }

  /** Every cell of a column is either kept as occupied or counted as empty. */
  lemma {:induction false} OccupiedLength(col: seq<int>)
    ensures |Occupied(col)| + CountEmpty(col) == |col|
  {
    if |col| > 0 {
      OccupiedLength(col[1..]);
    }
  }

  /** The compaction is a permutation of the column with its EMPTY cells
      taken out. */
  lemma {:induction false} OccupiedConserves(col: seq<int>)
    ensures multiset(Occupied(col)) + multiset(Repeat(EMPTY, CountEmpty(col))) == multiset(col)
  {
    if |col| > 0 {
      var occ, empties := Occupied(col[1..]), Repeat(EMPTY, CountEmpty(col[1..]));
      OccupiedConserves(col[1..]);
      MultisetCons(col, occ, empties);
      if col[0] == EMPTY {
        assert Occupied(col) == occ && Repeat(EMPTY, CountEmpty(col)) == [col[0]] + empties;
      } else {
        assert Occupied(col) == [col[0]] + occ && Repeat(EMPTY, CountEmpty(col)) == empties;
      }
    }
  }

  /** The first cell of a column put in front of either part of a split of
      the rest. */
  lemma MultisetCons(col: seq<int>, a: seq<int>, e: seq<int>)
    requires |col| > 0 && multiset(a) + multiset(e) == multiset(col[1..])
    ensures multiset([col[0]] + a) + multiset(e) == multiset(col)
    ensures multiset(a) + multiset([col[0]] + e) == multiset(col)
  {
    assert col == [col[0]] + col[1..];
  }

  /** What the compaction loop knows with rows r .. |col| - 1 scanned and e
      empty cells seen: rows above r are untouched, rows r .. r + e - 1 are
      EMPTY, and below them sit the occupied cells of the scanned part. */
  ghost predicate Compacted(col: seq<int>, out: seq<int>, r: int, e: nat) {
    && 0 <= r <= |col| && r + e <= |col| && |out| == |col|
    && out[..r] == col[..r]
    && (forall k :: r <= k < r + e ==> out[k] == EMPTY)
    && out[r + e..] == Occupied(col[r..])
    && e == CountEmpty(col[r..])
  }

  /** The next row up is EMPTY: the empty block grows by one. */
  lemma EmptyStep(col: seq<int>, out: seq<int>, r: int, e: nat)
    requires 0 <= r && Compacted(col, out, r + 1, e) && col[r] == EMPTY
    ensures out[r] == EMPTY && Compacted(col, out, r, e + 1)
  {
    assert col[r..] == [col[r]] + col[r + 1..];
    assert out[r] == out[..r + 1][r];
  }

  /** The next row up is occupied with e EMPTY cells below it: its tile moves
      down to row r + e. */
  lemma MoveStep(col: seq<int>, out: seq<int>, r: int, e: nat)
    requires 0 <= r && Compacted(col, out, r + 1, e) && col[r] != EMPTY && e > 0
    ensures out[r] == col[r] && Compacted(col, out[r + e := out[r]][r := EMPTY], r, e)
  {
    assert col[r..] == [col[r]] + col[r + 1..];
    assert out[r] == out[..r + 1][r];
    var out' := out[r + e := out[r]][r := EMPTY];
    assert out'[..r] == out[..r];
    assert out'[r + e..] == [col[r]] + out[r + e + 1..];
  }

  /** The next row up is occupied with nothing EMPTY below it: it stays. */
  lemma StayStep(col: seq<int>, out: seq<int>, r: int)
    requires 0 <= r && Compacted(col, out, r + 1, 0) && col[r] != EMPTY
    ensures out[r] == col[r] && Compacted(col, out, r, 0)
  {
    assert col[r..] == [col[r]] + col[r + 1..];
    assert out[r] == out[..r + 1][r];
    assert out[r..] == [col[r]] + out[r + 1..];
  }

  /** The compaction loop of one column, bottom row first. The result is the
      column's empty cells on top and its occupied cells, in their original
      top-to-bottom order, aligned to the bottom. */
  method CollapseColumn(col: seq<int>) returns (out: seq<int>, emptyCount: nat)
    ensures emptyCount == CountEmpty(col)
    ensures out == Repeat(EMPTY, emptyCount) + Occupied(col)
  {
    out := col;
    emptyCount := 0;
    var r := |col|;
    while r > 0
      invariant Compacted(col, out, r, emptyCount)
    {
      r := r - 1;
      if col[r] == EMPTY {
        EmptyStep(col, out, r, emptyCount);
      } else if emptyCount > 0 {
        MoveStep(col, out, r, emptyCount);
      } else {
        StayStep(col, out, r);
      }
      if out[r] == EMPTY {
        emptyCount := emptyCount + 1;
      } else if emptyCount > 0 {
        var newRow := r + emptyCount;
        out := out[newRow := out[r]][r := EMPTY];
      }
    }
    assert col[0..] == col;
    assert out == out[..emptyCount] + out[emptyCount..];
    assert out[..emptyCount] == Repeat(EMPTY, emptyCount);
  }

  /** Fill the top emptyCount cells of a collapsed column with drawn kinds, in
      order from the top row down. The cells below keep their tiles, so a
      collapsed column refilled with kinds holds no EMPTY cell. */
  function Refill(col: seq<int>, emptyCount: nat, drawn: seq<int>): (out: seq<int>)
    requires emptyCount <= |col| && emptyCount <= |drawn|
    ensures |out| == |col|
    ensures forall k :: 0 <= k < emptyCount ==> out[k] == drawn[k]
    ensures forall k :: emptyCount <= k < |col| ==> out[k] == col[k]
    ensures (forall i :: 0 <= i < emptyCount ==> IsKind(drawn[i])) &&
            (forall k :: emptyCount <= k < |col| ==> col[k] != EMPTY) ==>
              forall k :: 0 <= k < |out| ==> out[k] != EMPTY
  {
    drawn[..emptyCount] + col[emptyCount..]
  }

  /** One column after collapse and refill: the drawn kinds on top, then the
      column's occupied cells in their original order. */
  method SettleColumn(col: seq<int>, drawn: seq<int>) returns (out: seq<int>, used: nat)
    requires |drawn| >= CountEmpty(col)
    ensures used == CountEmpty(col)
    ensures |out| == |col|
    ensures out == drawn[..used] + Occupied(col)
  {
    var collapsed;
    collapsed, used := CollapseColumn(col);
    OccupiedLength(col);
    out := Refill(collapsed, used, drawn);
    assert collapsed[used..] == Occupied(col);
  }

  /** Replace column c of the grid. */
  function SetColumn(b: Grid, c: int, col: seq<int>): (b': Grid)
    requires WellFormed(b) && 0 <= c < COLS && |col| == ROWS
    ensures WellFormed(b')
    ensures Column(b', c) == col
    ensures forall c' :: 0 <= c' < COLS && c' != c ==> Column(b', c') == Column(b, c')
  {
    var b' := seq(ROWS, r requires 0 <= r < ROWS => b[r][c := col[r]]);
    assert Column(b', c) == col;
    b'
  }

  /** The empty cells of columns 0 .. c - 1: how many draws the refill has
      consumed when it reaches column c. */
  function EmptyBefore(b: Grid, c: int): nat
    requires WellFormed(b) && 0 <= c <= COLS
    decreases c
  {
    if c == 0 then 0 else EmptyBefore(b, c - 1) + CountEmpty(Column(b, c - 1))
  }

  /** The number of draws one refill of the whole board consumes. */
  function EmptyTotal(b: Grid): nat
    requires WellFormed(b)
  {
    EmptyBefore(b, COLS)
  }

  lemma {:induction false} EmptyBeforeBound(b: Grid, c: int)
    requires WellFormed(b) && 0 <= c <= COLS
    ensures EmptyBefore(b, c) <= EmptyTotal(b)
    decreases COLS - c
  {
    if c < COLS {
      EmptyBeforeBound(b, c + 1);
    }
  }

  lemma {:induction false} OccupiedAppend(x: seq<int>, y: seq<int>)
    ensures Occupied(x + y) == Occupied(x) + Occupied(y)
    ensures CountEmpty(x + y) == CountEmpty(x) + CountEmpty(y)
    decreases |x|
  {
    if |x| == 0 {
      assert x + y == y;
    } else {
      assert (x + y)[1..] == x[1..] + y;
      OccupiedAppend(x[1..], y);
    }
  }

  /** The row a tile at row r of a column reaches: r plus the number of empty
      cells below it. */
  function Drop(col: seq<int>, r: int): (d: int)
    requires 0 <= r < |col|
    ensures r <= d < |col|
  {
    r + CountEmpty(col[r + 1..])
  }

  /** Splitting a column at an occupied cell r. */
  lemma OccupiedSplit(col: seq<int>, r: int)
    requires 0 <= r < |col| && col[r] != EMPTY
    ensures Occupied(col) == Occupied(col[..r]) + [col[r]] + Occupied(col[r + 1..])
    ensures CountEmpty(col) == CountEmpty(col[..r]) + CountEmpty(col[r + 1..])
    ensures |Occupied(col[..r])| + CountEmpty(col[..r]) == r
  {
    var front, back := col[..r], col[r + 1..];
    assert col == (front + [col[r]]) + back;
    OccupiedAppend(front + [col[r]], back);
    OccupiedAppend(front, [col[r]]);
    assert Occupied([col[r]]) == [col[r]];
    OccupiedLength(front);
  }

  /** A tile moved by the compaction lands on the row Drop names, whatever the
      refill puts above it. */
  lemma DropLands(col: seq<int>, drawn: seq<int>, r: int)
    requires 0 <= r < |col| && col[r] != EMPTY && |drawn| == CountEmpty(col)
    ensures r <= Drop(col, r) < |col|
    ensures |drawn + Occupied(col)| == |col|
    ensures (drawn + Occupied(col))[Drop(col, r)] == col[r]
  {
    OccupiedSplit(col, r);
    OccupiedLength(col);
    var at := |drawn| + |Occupied(col[..r])|;
    assert at == Drop(col, r);
    assert Occupied(col)[|Occupied(col[..r])|] == col[r];
  }

  /** The draws the refill of column c consumes. */
  function ColumnDraws(b: Grid, draws: seq<int>, c: int): (d: seq<int>)
    requires WellFormed(b) && 0 <= c < COLS && |draws| >= EmptyTotal(b)
    ensures |d| == CountEmpty(Column(b, c))
  {
    EmptyBeforeBound(b, c + 1);
    draws[EmptyBefore(b, c)..EmptyBefore(b, c + 1)]
  }

  /** The first n elements after position i are the slice i .. i + n. */
  lemma DropTake(s: seq<int>, i: nat, n: nat)
    requires i + n <= |s|
    ensures s[i..][..n] == s[i..i + n]
  {
  }

  /** Column c of b' is column c of b after collapse and refill. */
  ghost predicate ColumnSettled(b: Grid, draws: seq<int>, b': Grid, c: int)
    requires WellFormed(b) && WellFormed(b') && 0 <= c < COLS && |draws| >= EmptyTotal(b)
  {
    Column(b', c) == ColumnDraws(b, draws, c) + Occupied(Column(b, c))
  }

  /** b' is the board b after collapse and refill from the draws: in every
      column, that column's share of the draws on top of its tiles. */
  ghost predicate Settled(b: Grid, draws: seq<int>, b': Grid)
    requires WellFormed(b) && WellFormed(b')
  {
    |draws| >= EmptyTotal(b) && forall c :: 0 <= c < COLS ==> ColumnSettled(b, draws, b', c)
  }

  /** collapseAndRefillWithAnimation, column by column, with the fresh kinds
      taken from one stream in column order. In every column the occupied
      cells keep their number and relative order and end up at the bottom,
      exactly the top emptyCount cells receive the next drawn kinds, and no
      cell is left EMPTY. */
  method CollapseAndRefill(b: Grid, draws: seq<int>) returns (b': Grid, used: nat)
    requires WellFormed(b) && KindsOrEmpty(b)
    requires |draws| >= EmptyTotal(b)
    requires forall i :: 0 <= i < |draws| ==> IsKind(draws[i])
    ensures used == EmptyTotal(b)
    ensures WellFormed(b') && Kinds(b')
    ensures forall c :: 0 <= c < COLS ==>
      Column(b', c) == ColumnDraws(b, draws, c) + Occupied(Column(b, c))
  {
    b' := b;
    used := 0;
    var c := 0;
    while c < COLS
      invariant 0 <= c <= COLS && WellFormed(b')
      invariant used == EmptyBefore(b, c) <= EmptyTotal(b)
      invariant forall j :: 0 <= j < c ==> ColumnSettled(b, draws, b', j)
      invariant forall j :: c <= j < COLS ==> Column(b', j) == Column(b, j)
    {
      EmptyBeforeBound(b, c + 1);
      assert Column(b', c) == Column(b, c);
      var col, n := SettleColumn(Column(b', c), draws[used..]);
      assert used + n == EmptyBefore(b, c + 1);
      DropTake(draws, used, n);
      assert draws[used..][..n] == ColumnDraws(b, draws, c);
      var next := SetColumn(b', c, col);
      forall j | 0 <= j <= c
        ensures ColumnSettled(b, draws, next, j)
      {
        if j < c {
          assert Column(next, j) == Column(b', j);
          assert ColumnSettled(b, draws, b', j);
        }
      }
      b' := next;
      used := used + n;
      c := c + 1;
    }
    SettledKinds(b, draws, b');
    forall j | 0 <= j < COLS
      ensures Column(b', j) == ColumnDraws(b, draws, j) + Occupied(Column(b, j))
    {
      assert ColumnSettled(b, draws, b', j);
    }
  }

  /** The compaction keeps only occupied cells, so a column of kinds and
      EMPTY cells compacts to kinds. */
  lemma {:induction false} OccupiedKinds(col: seq<int>)
    requires forall k :: 0 <= k < |col| ==> IsKind(col[k]) || col[k] == EMPTY
    ensures forall k :: 0 <= k < |Occupied(col)| ==> IsKind(Occupied(col)[k])
  {
    if |col| > 0 {
      OccupiedKinds(col[1..]);
    }
  }

  /** After the refill every cell holds a kind: either a drawn one or a tile
      that was already on the board. */
  lemma SettledKinds(b: Grid, draws: seq<int>, b': Grid)
    requires WellFormed(b) && KindsOrEmpty(b) && WellFormed(b')
    requires |draws| >= EmptyTotal(b)
    requires forall i :: 0 <= i < |draws| ==> IsKind(draws[i])
    requires forall c :: 0 <= c < COLS ==> ColumnSettled(b, draws, b', c)
    ensures Kinds(b')
  {
    forall r, j | 0 <= r < ROWS && 0 <= j < COLS
      ensures IsKind(b'[r][j])
    {
      SettledColumnKinds(b, draws, b', j);
    }
  }

  /** One settled column holds only kinds. */
  lemma SettledColumnKinds(b: Grid, draws: seq<int>, b': Grid, j: int)
    requires WellFormed(b) && KindsOrEmpty(b) && WellFormed(b') && 0 <= j < COLS
    requires |draws| >= EmptyTotal(b)
    requires forall i :: 0 <= i < |draws| ==> IsKind(draws[i])
    requires ColumnSettled(b, draws, b', j)
    ensures forall r :: 0 <= r < ROWS ==> IsKind(b'[r][j])
  {
    var drawn := ColumnDraws(b, draws, j);
    EmptyBeforeBound(b, j + 1);
    forall k | 0 <= k < |drawn|
      ensures IsKind(drawn[k])
    {
      assert drawn[k] == draws[EmptyBefore(b, j) + k];
    }
    OccupiedKinds(Column(b, j));
    var col := drawn + Occupied(Column(b, j));
    assert forall k :: 0 <= k < |col| ==> IsKind(col[k]);
    forall r | 0 <= r < ROWS
      ensures IsKind(b'[r][j])
    {
      assert b'[r][j] == Column(b', j)[r];
    }
  }

  /** Where a tile of the board ends up after the collapse. */
  function Fall(b: Grid, p: Cell): (q: Cell)
    requires WellFormed(b) && InBounds(p)
    ensures InBounds(q) && q.c == p.c && p.r <= q.r
  {
    Cell(Drop(Column(b, p.c), p.r), p.c)
  }

  /** Each tile falls straight down by the number of empty cells below it and
      keeps its kind. */
  lemma TilesFall(b: Grid, draws: seq<int>, b': Grid)
    requires WellFormed(b) && WellFormed(b') && |draws| >= EmptyTotal(b)
    requires forall c :: 0 <= c < COLS ==>
      Column(b', c) == ColumnDraws(b, draws, c) + Occupied(Column(b, c))
    ensures forall p :: InBounds(p) && Get(b, p) != EMPTY ==>
      InBounds(Fall(b, p)) && p.r <= Fall(b, p).r && Get(b', Fall(b, p)) == Get(b, p)
  {
    forall p | InBounds(p) && Get(b, p) != EMPTY
      ensures InBounds(Fall(b, p)) && p.r <= Fall(b, p).r && Get(b', Fall(b, p)) == Get(b, p)
    {
      var col := Column(b, p.c);
      EmptyBeforeBound(b, p.c + 1);
      var drawn := ColumnDraws(b, draws, p.c);
      DropLands(col, drawn, p.r);
      assert Get(b', Fall(b, p)) == Column(b', p.c)[Drop(col, p.r)];
    }
  }
}

=== FILE: lines.dfy ===
/** Run detection along one line of the grid (a row, or a column read top to
    bottom). This is the inner loop of findMatches, shared by its horizontal
    and vertical passes: a counter grows while each cell is occupied and equal
    to its predecessor, and a run of three or more is reported whenever the
    chain breaks or the line ends. */
module Lines {
  import opened Board

  /** A reported run: the cells stop - len .. stop - 1 of the line. */
  datatype Run = Run(stop: nat, len: nat) {
    function Start(): int {
      stop - len
    }
  }

  // ----- Reference definitions, independent of the scan -----

  /** Cells i .. j - 1 are occupied and all hold the same kind. */
  ghost predicate Uniform(s: seq<int>, i: int, j: int) {
    0 <= i < j <= |s| && s[i] != EMPTY && forall k :: i <= k < j ==> s[k] == s[i]
  }

  /** Cell k lies inside some stretch of three or more equal occupied cells. */
  ghost predicate InRun(s: seq<int>, k: int) {
    exists i, j :: i <= k < j && j - i >= 3 && Uniform(s, i, j)
  }

  /** x is a maximal stretch of at least three equal occupied cells. */
  ghost predicate MaximalRun(s: seq<int>, x: Run) {
    && 3 <= x.len <= x.stop <= |s|
    && Uniform(s, x.Start(), x.stop)
    && (x.Start() == 0 || s[x.Start() - 1] != s[x.Start()])
    && (x.stop == |s| || s[x.stop] != s[x.stop - 1])
  }

  /** Runs listed left to right, each ending at or before the next starts,
      so no run is listed twice. */
  ghost predicate InOrder(runs: seq<Run>) {
    forall t, u :: 0 <= t < u < |runs| ==> runs[t].stop <= runs[u].Start()
  }

  /** Some reported run contains cell k. */
  predicate Covered(runs: seq<Run>, k: int) {
    exists t :: 0 <= t < |runs| && runs[t].Start() <= k < runs[t].stop
  }

  // ----- The scan -----

  /** The test that extends the current run through position k. */
  predicate Link(s: seq<int>, k: int)
    requires 0 < k < |s|
  {
    s[k] != EMPTY && s[k] == s[k - 1]
  }

  /** Report the run ending before position stop if it is long enough. */
  function Close(acc: seq<Run>, stop: nat, count: nat): seq<Run> {
    if count >= 3 then acc + [Run(stop, count)] else acc
  }

  /** The scan loop at position c, with count equal cells ending at c - 1. */
  function ScanFrom(s: seq<int>, c: nat, count: nat, acc: seq<Run>): seq<Run>
    requires 1 <= c <= |s|
    decreases |s| - c
  {
    if c == |s| then Close(acc, c, count)
    else if Link(s, c) then ScanFrom(s, c + 1, count + 1, acc)
    else ScanFrom(s, c + 1, 1, Close(acc, c, count))
  }

  /** All runs of three or more along a line, in order of position. */
  function ScanLine(s: seq<int>): (runs: seq<Run>)
    ensures forall t :: 0 <= t < |runs| ==> MaximalRun(s, runs[t])
    ensures InOrder(runs)
    ensures forall k :: 0 <= k < |s| ==> (Covered(runs, k) <==> InRun(s, k))
    ensures forall x :: x in runs <==> MaximalRun(s, x)
  {
    if |s| == 0 then []
    else
      ScanFromCorrect(s, 1, 1, []);
      ScanFromOrdered(s, 1, 1, []);
      var runs := ScanFrom(s, 1, 1, []);
      RunsCover(s, runs);
      runs
  }

  // ----- Proof of the scan -----

  /** What the scan knows at position c: the current chain is the block
      c - count .. c - 1, which cannot be extended to the left, and acc holds
      exactly the maximal runs lying wholly before that block. */
  ghost predicate ScanInv(s: seq<int>, c: nat, count: nat, acc: seq<Run>) {
    && 1 <= c <= |s|
    && 1 <= count <= c
    && (forall k :: c - count < k < c ==> Link(s, k))
    && (c - count == 0 || !Link(s, c - count))
    && (forall x {:trigger x in acc} :: x in acc ==> MaximalRun(s, x) && x.stop <= c - count)
    && (forall x {:trigger MaximalRun(s, x)} :: MaximalRun(s, x) && x.stop <= c - count ==> x in acc)
  }

  /** A chain of links from i to j - 1 is a uniform block. */
  lemma {:induction false} ChainUniform(s: seq<int>, i: int, j: int)
    requires 0 <= i && i + 2 <= j <= |s|
    requires forall k :: i < k < j ==> Link(s, k)
    ensures Uniform(s, i, j)
  {
    if j == i + 2 {
      assert Link(s, i + 1);
    } else {
      ChainUniform(s, i, j - 1);
      assert Link(s, j - 1);
    }
  }

  /** A uniform stretch through a cell of a block that cannot be extended on
      either side lies inside that block. */
  lemma BlockBound(s: seq<int>, st: int, stop: int, i: int, j: int, k: int)
    requires 0 <= st <= k < stop <= |s|
    requires st == 0 || !Link(s, st)
    requires stop == |s| || !Link(s, stop)
    requires Uniform(s, i, j) && i <= k < j
    ensures st <= i && j <= stop
  {
    assert forall m :: i < m < j ==> Link(s, m);
  }

  /** A maximal run ending inside a chained block that cannot be extended on
      either side is that whole block. */
  lemma BlockRun(s: seq<int>, st: int, c: int, x: Run)
    requires 0 <= st < c <= |s|
    requires forall k :: st < k < c ==> Link(s, k)
    requires st == 0 || !Link(s, st)
    requires c == |s| || !Link(s, c)
    requires MaximalRun(s, x) && st < x.stop <= c
    ensures x == Run(c, c - st)
  {
    BlockBound(s, st, c, x.Start(), x.stop, x.stop - 1);
    assert x.stop < |s| ==> !Link(s, x.stop);
    assert x.Start() > 0 ==> !Link(s, x.Start());
  }

  /** The block st .. c - 1 of a chain that cannot be extended is a maximal
      run once it is three long. */
  lemma BlockMaximal(s: seq<int>, st: int, c: int)
    requires 0 <= st && st + 3 <= c <= |s|
    requires forall k :: st < k < c ==> Link(s, k)
    requires st == 0 || !Link(s, st)
    requires c == |s| || !Link(s, c)
    ensures MaximalRun(s, Run(c, c - st))
  {
    ChainUniform(s, st, c);
    assert Run(c, c - st).Start() == st;
    assert st == 0 || s[st - 1] != s[st] by {
      if st != 0 {
        assert !Link(s, st);
      }
    }
    assert c == |s| || s[c] != s[c - 1] by {
      if c != |s| {
        assert !Link(s, c);
      }
    }
  }

  /** Closing the current block at position c keeps the invariant's promises
      about acc, now for every run ending at or before c. */
  lemma CloseBlock(s: seq<int>, c: nat, count: nat, acc: seq<Run>)
    requires ScanInv(s, c, count, acc)
    requires c == |s| || !Link(s, c)
    ensures forall x {:trigger x in Close(acc, c, count)} ::
      x in Close(acc, c, count) ==> MaximalRun(s, x) && x.stop <= c
    ensures forall x {:trigger MaximalRun(s, x)} :: MaximalRun(s, x) && x.stop <= c ==> x in Close(acc, c, count)
  {
    var st := c - count;
    var acc' := Close(acc, c, count);
    if count >= 3 {
      BlockMaximal(s, st, c);
    }
    forall x {:trigger MaximalRun(s, x)} | MaximalRun(s, x) && x.stop <= c
      ensures x in acc'
    {
      if x.stop <= st {
        assert x in acc;
      } else {
        BlockRun(s, st, c, x);
        assert count >= 3 && acc' == acc + [x];
      }
    }
  }

  /** The promises the scan makes: every listed run is maximal and every
      maximal run is listed. */
  ghost predicate RunsCorrect(s: seq<int>, runs: seq<Run>) {
    forall x :: x in runs <==> MaximalRun(s, x)
  }

  /** One step of the scan before the end of the line keeps the invariant:
      a linked cell extends the current block, any other cell closes it and
      starts a new one. */
  lemma Step(s: seq<int>, c: nat, count: nat, acc: seq<Run>) returns (count': nat, acc': seq<Run>)
    requires ScanInv(s, c, count, acc) && c < |s|
    ensures ScanInv(s, c + 1, count', acc')
    ensures ScanFrom(s, c, count, acc) == ScanFrom(s, c + 1, count', acc')
  {
    ScanFromUnfold(s, c, count, acc);
    if Link(s, c) {
      count', acc' := count + 1, acc;
    } else {
      CloseBlock(s, c, count, acc);
      count', acc' := 1, Close(acc, c, count);
    }
  }

  /** At the end of the line, the scan closes the last block. */
  lemma ScanEnd(s: seq<int>, c: nat, count: nat, acc: seq<Run>)
    requires ScanInv(s, c, count, acc) && c == |s|
    ensures RunsCorrect(s, ScanFrom(s, c, count, acc))
  {
    CloseBlock(s, c, count, acc);
    assert ScanFrom(s, c, count, acc) == Close(acc, c, count);
  }

  /** From any state that satisfies the invariant, the scan lists exactly the
      maximal runs of the line. */
  lemma {:induction false} ScanFromCorrect(s: seq<int>, c: nat, count: nat, acc: seq<Run>)
    requires ScanInv(s, c, count, acc)
    ensures RunsCorrect(s, ScanFrom(s, c, count, acc))
    decreases |s| - c
  {
    if c == |s| {
      ScanEnd(s, c, count, acc);
    } else {
      var count', acc' := Step(s, c, count, acc);
      ScanFromCorrect(s, c + 1, count', acc');
    }
  }

  /** One step of the scan loop before the end of the line. */
  lemma ScanFromUnfold(s: seq<int>, c: nat, count: nat, acc: seq<Run>)
    requires 1 <= c < |s|
    ensures Link(s, c) ==> ScanFrom(s, c, count, acc) == ScanFrom(s, c + 1, count + 1, acc)
    ensures !Link(s, c) ==> ScanFrom(s, c, count, acc) == ScanFrom(s, c + 1, 1, Close(acc, c, count))
  {
  }

  /** The scan lists its runs left to right: each run it appends starts at or
      after the end of every run before it. */
  lemma {:induction false} ScanFromOrdered(s: seq<int>, c: nat, count: nat, acc: seq<Run>)
    requires 1 <= c <= |s| && count <= c
    requires InOrder(acc) && forall t :: 0 <= t < |acc| ==> acc[t].stop <= c - count
    ensures InOrder(ScanFrom(s, c, count, acc))
    decreases |s| - c
  {
    if c == |s| {
      CloseOrdered(acc, c, count);
    } else if Link(s, c) {
      ScanFromOrdered(s, c + 1, count + 1, acc);
      ScanFromUnfold(s, c, count, acc);
    } else {
      CloseOrdered(acc, c, count);
      ScanFromOrdered(s, c + 1, 1, Close(acc, c, count));
      ScanFromUnfold(s, c, count, acc);
    }
  }

  /** Closing a block that starts after every run of acc keeps acc in order. */
  lemma CloseOrdered(acc: seq<Run>, c: nat, count: nat)
    requires count <= c
    requires InOrder(acc) && forall t :: 0 <= t < |acc| ==> acc[t].stop <= c - count
    ensures InOrder(Close(acc, c, count))
    ensures forall t :: 0 <= t < |Close(acc, c, count)| ==> Close(acc, c, count)[t].stop <= c
  {
    var acc' := Close(acc, c, count);
    forall t, u | 0 <= t < u < |acc'|
      ensures acc'[t].stop <= acc'[u].Start()
    {
      assert acc'[t] == acc[t];
      if u < |acc| {
        assert acc'[u] == acc[u];
      }
    }
    forall t | 0 <= t < |acc'|
      ensures acc'[t].stop <= c
    {
      if t < |acc| {
        assert acc'[t] == acc[t];
      }
    }
  }

  /** The first cell of the block of equal occupied cells chained to cell k. */
  ghost function BlockStart(s: seq<int>, k: int): (st: int)
    requires 0 <= k < |s|
    ensures 0 <= st <= k
    decreases k
  {
    if k > 0 && Link(s, k) then BlockStart(s, k - 1) else k
  }

  /** One past the last cell of the block chained to cell k. */
  ghost function BlockStop(s: seq<int>, k: int): (e: int)
    requires 0 <= k < |s|
    ensures k < e <= |s|
    decreases |s| - k
  {
    if k + 1 < |s| && Link(s, k + 1) then BlockStop(s, k + 1) else k + 1
  }

  /** Every cell from just after BlockStart up to k links to its predecessor,
      and the block cannot be extended to the left. */
  lemma {:induction false} BlockStartChain(s: seq<int>, k: int)
    requires 0 <= k < |s|
    ensures forall m :: BlockStart(s, k) < m <= k ==> Link(s, m)
    ensures BlockStart(s, k) == 0 || !Link(s, BlockStart(s, k))
    decreases k
  {
    if k > 0 && Link(s, k) {
      BlockStartChain(s, k - 1);
    }
  }

  /** Every cell after k up to BlockStop links to its predecessor, and the
      block cannot be extended to the right. */
  lemma {:induction false} BlockStopChain(s: seq<int>, k: int)
    requires 0 <= k < |s|
    ensures forall m :: k < m < BlockStop(s, k) ==> Link(s, m)
    ensures BlockStop(s, k) == |s| || !Link(s, BlockStop(s, k))
    decreases |s| - k
  {
    if k + 1 < |s| && Link(s, k + 1) {
      BlockStopChain(s, k + 1);
    }
  }

  /** A cell inside a stretch of three or more equal occupied cells lies in a
      maximal run: the whole block chained to it. */
  lemma InRunMaximal(s: seq<int>, k: int) returns (x: Run)
    requires 0 <= k < |s| && InRun(s, k)
    ensures MaximalRun(s, x) && x.Start() <= k < x.stop
  {
    var i, j :| i <= k < j && j - i >= 3 && Uniform(s, i, j);
    var st, e := BlockStart(s, k), BlockStop(s, k);
    BlockStartChain(s, k);
    BlockStopChain(s, k);
    BlockBound(s, st, e, i, j, k);
    BlockMaximal(s, st, e);
    x := Run(e, e - st);
  }

  /** A list holding exactly the maximal runs covers exactly the cells that lie
      in a stretch of three or more equal occupied cells. */
  lemma RunsCover(s: seq<int>, runs: seq<Run>)
    requires RunsCorrect(s, runs)
    ensures forall k :: 0 <= k < |s| ==> (Covered(runs, k) <==> InRun(s, k))
  {
    forall k | 0 <= k < |s|
      ensures Covered(runs, k) <==> InRun(s, k)
    {
      if Covered(runs, k) {
        var t :| 0 <= t < |runs| && runs[t].Start() <= k < runs[t].stop;
        var x := runs[t];
        assert x in runs;
        assert x.Start() <= k < x.stop && x.stop - x.Start() >= 3 && Uniform(s, x.Start(), x.stop);
      }
      if InRun(s, k) {
        var x := InRunMaximal(s, k);
        assert x in runs;
        var t :| 0 <= t < |runs| && runs[t] == x;
        assert runs[t].Start() <= k < runs[t].stop;
      }
    }
  }
}

=== FILE: matches.dfy ===
/** findMatches: scan every row, then every column, for maximal runs of three
    or more equal occupied cells. Each run becomes a segment whose cells are
    listed from the run's far end (right end of a row run, bottom end of a
    column run) back to its start, and the marks mask is the union of all
    segment cells. */
module Matches {
  import opened Board
  import opened Lines

  datatype Segment = Segment(len: nat, cells: seq<Cell>)

  datatype MatchResult = MatchResult(hasMatch: bool, marks: seq<seq<bool>>, segments: seq<Segment>)

  /** A ROWS x COLS mask of booleans. */
  predicate MaskShape(m: seq<seq<bool>>) {
    |m| == ROWS && forall r :: 0 <= r < ROWS ==> |m[r]| == COLS
  }

  function RowSegment(r: int, x: Run): Segment {
    Segment(x.len, seq(x.len, k => Cell(r, x.stop - 1 - k)))
  }

  function ColumnSegment(c: int, x: Run): Segment {
    Segment(x.len, seq(x.len, k => Cell(x.stop - 1 - k, c)))
  }

  /** The segments of the runs of row r, in scan order. */
  function RowSegments(r: int, runs: seq<Run>): (segs: seq<Segment>)
    ensures |segs| == |runs|
    ensures forall t :: 0 <= t < |runs| ==> segs[t] == RowSegment(r, runs[t])
  {
    seq(|runs|, t requires 0 <= t < |runs| => RowSegment(r, runs[t]))
  }

  /** The segments of the runs of column c, in scan order. */
  function ColumnSegments(c: int, runs: seq<Run>): (segs: seq<Segment>)
    ensures |segs| == |runs|
    ensures forall t :: 0 <= t < |runs| ==> segs[t] == ColumnSegment(c, runs[t])
  {
    seq(|runs|, t requires 0 <= t < |runs| => ColumnSegment(c, runs[t]))
  }

  /** Segments of rows r .. ROWS - 1, row by row. */
  function RowSegmentsFrom(b: Grid, r: int): seq<Segment>
    requires WellFormed(b) && 0 <= r <= ROWS
    decreases ROWS - r
  {
    if r == ROWS then []
    else
      RowSegments(r, ScanLine(b[r])) + RowSegmentsFrom(b, r + 1)
  }

  /** Segments of columns c .. COLS - 1, column by column. */
  function ColumnSegmentsFrom(b: Grid, c: int): seq<Segment>
    requires WellFormed(b) && 0 <= c <= COLS
    decreases COLS - c
  {
    if c == COLS then []
    else
      ColumnSegments(c, ScanLine(Column(b, c))) + ColumnSegmentsFrom(b, c + 1)
  }

  /** Some segment lists cell p. */
  predicate Covers(segs: seq<Segment>, p: Cell) {
    exists t :: 0 <= t < |segs| && p in segs[t].cells
  }

  /** Every row's segments, then every column's. */
  function Segments(b: Grid): seq<Segment>
    requires WellFormed(b)
  {
    RowSegmentsFrom(b, 0) + ColumnSegmentsFrom(b, 0)
  }

  /** The mask marking every cell listed by some segment. */
  function MarksOf(segs: seq<Segment>): (m: seq<seq<bool>>)
    ensures MaskShape(m)
    ensures forall r, c :: 0 <= r < ROWS && 0 <= c < COLS ==> (m[r][c] <==> Covers(segs, Cell(r, c)))
  {
    seq(ROWS, r => seq(COLS, c => Covers(segs, Cell(r, c))))
  }

  /** findMatches: the segments of every row, then of every column, the mask
      of the cells they list, and whether any was found. What the segments
      and the marks are is stated by SegmentsExact and MarksExact. */
  function FindMatches(b: Grid): (m: MatchResult)
    requires WellFormed(b)
    ensures MaskShape(m.marks)
    ensures m.hasMatch <==> |m.segments| > 0
  {
    var segs := Segments(b);
    MatchResult(|segs| > 0, MarksOf(segs), segs)
  }

  // ----- Reference definitions -----

  /** The cells are consecutive, going left along one row or up along one column. */
  ghost predicate Straight(cells: seq<Cell>) {
    |cells| > 0 &&
    ((forall k :: 0 <= k < |cells| ==> cells[k] == Cell(cells[0].r, cells[0].c - k)) ||
     (forall k :: 0 <= k < |cells| ==> cells[k] == Cell(cells[0].r - k, cells[0].c)))
  }

  /** A segment is at least three long, lists len in-bounds cells in a straight
      line, and all of them hold the same occupied kind. */
  ghost predicate SegmentSound(b: Grid, seg: Segment)
    requires WellFormed(b)
  {
    && seg.len >= 3
    && |seg.cells| == seg.len
    && (forall k :: 0 <= k < |seg.cells| ==> InBounds(seg.cells[k]))
    && Straight(seg.cells)
    && Get(b, seg.cells[0]) != EMPTY
    && (forall k :: 0 <= k < |seg.cells| ==> Get(b, seg.cells[k]) == Get(b, seg.cells[0]))
  }

  /** Three equal occupied cells starting at (r, c), going right. */
  predicate RowTriple(b: Grid, r: int, c: int)
    requires WellFormed(b) && 0 <= r < ROWS && 0 <= c && c + 2 < COLS
  {
    b[r][c] != EMPTY && b[r][c + 1] == b[r][c] && b[r][c + 2] == b[r][c]
  }

  /** Three equal occupied cells starting at (r, c), going down. */
  predicate ColumnTriple(b: Grid, r: int, c: int)
    requires WellFormed(b) && 0 <= r && r + 2 < ROWS && 0 <= c < COLS
  {
    b[r][c] != EMPTY && b[r + 1][c] == b[r][c] && b[r + 2][c] == b[r][c]
  }

  ghost predicate HasTriple(b: Grid)
    requires WellFormed(b)
  {
    || (exists r, c :: 0 <= r < ROWS && 0 <= c && c + 2 < COLS && RowTriple(b, r, c))
    || (exists r, c :: 0 <= r && r + 2 < ROWS && 0 <= c < COLS && ColumnTriple(b, r, c))
  }

  // ----- Properties -----

  lemma RowSegmentSound(b: Grid, r: int, x: Run)
    requires WellFormed(b) && 0 <= r < ROWS && MaximalRun(b[r], x)
    ensures SegmentSound(b, RowSegment(r, x))
  {
    var cells := RowSegment(r, x).cells;
    assert cells[0] == Cell(r, x.stop - 1);
    forall k | 0 <= k < |cells|
      ensures InBounds(cells[k]) && Get(b, cells[k]) == Get(b, cells[0])
    {
      assert b[r][x.stop - 1 - k] == b[r][x.Start()];
    }
  }

  lemma ColumnSegmentSound(b: Grid, c: int, x: Run)
    requires WellFormed(b) && 0 <= c < COLS && MaximalRun(Column(b, c), x)
    ensures SegmentSound(b, ColumnSegment(c, x))
  {
    var col := Column(b, c);
    var cells := ColumnSegment(c, x).cells;
    assert cells[0] == Cell(x.stop - 1, c);
    forall k | 0 <= k < |cells|
      ensures InBounds(cells[k]) && Get(b, cells[k]) == Get(b, cells[0])
    {
      assert col[x.stop - 1 - k] == col[x.Start()];
    }
  }

  ghost predicate AllSound(b: Grid, segs: seq<Segment>)
    requires WellFormed(b)
  {
    forall t :: 0 <= t < |segs| ==> SegmentSound(b, segs[t])
  }

  lemma AllSoundAppend(b: Grid, x: seq<Segment>, y: seq<Segment>)
    requires WellFormed(b) && AllSound(b, x) && AllSound(b, y)
    ensures AllSound(b, x + y)
  {
    forall t | 0 <= t < |x + y|
      ensures SegmentSound(b, (x + y)[t])
    {
      if t < |x| {
        assert (x + y)[t] == x[t];
      } else {
        assert (x + y)[t] == y[t - |x|];
      }
    }
  }

  lemma {:induction false} RowSegmentsSound(b: Grid, r: int)
    requires WellFormed(b) && 0 <= r <= ROWS
    ensures AllSound(b, RowSegmentsFrom(b, r))
    decreases ROWS - r
  {
    if r < ROWS {
      RowSegmentsSound(b, r + 1);
      var runs := ScanLine(b[r]);
      var here := RowSegments(r, runs);
      forall t | 0 <= t < |here|
        ensures SegmentSound(b, here[t])
      {
        RowSegmentSound(b, r, runs[t]);
      }
      AllSoundAppend(b, here, RowSegmentsFrom(b, r + 1));
    }
  }

  lemma {:induction false} ColumnSegmentsSound(b: Grid, c: int)
    requires WellFormed(b) && 0 <= c <= COLS
    ensures AllSound(b, ColumnSegmentsFrom(b, c))
    decreases COLS - c
  {
    if c < COLS {
      ColumnSegmentsSound(b, c + 1);
      var runs := ScanLine(Column(b, c));
      var here := ColumnSegments(c, runs);
      forall t | 0 <= t < |here|
        ensures SegmentSound(b, here[t])
      {
        ColumnSegmentSound(b, c, runs[t]);
      }
      AllSoundAppend(b, here, ColumnSegmentsFrom(b, c + 1));
    }
  }

  /** Every segment findMatches reports is sound: at least three long, its
      length equal to its number of cells, the cells consecutive along one row
      or column, all holding the same occupied kind. */
  lemma SegmentsSound(b: Grid)
    requires WellFormed(b)
    ensures AllSound(b, FindMatches(b).segments)
  {
    RowSegmentsSound(b, 0);
    ColumnSegmentsSound(b, 0);
    AllSoundAppend(b, RowSegmentsFrom(b, 0), ColumnSegmentsFrom(b, 0));
    assert FindMatches(b).segments == Segments(b);
  }

  lemma CoversAppend(a: seq<Segment>, z: seq<Segment>, p: Cell)
    ensures Covers(a + z, p) <==> Covers(a, p) || Covers(z, p)
  {
    if Covers(a, p) {
      var t :| 0 <= t < |a| && p in a[t].cells;
      assert (a + z)[t] == a[t];
    }
    if Covers(z, p) {
      var t :| 0 <= t < |z| && p in z[t].cells;
      assert (a + z)[|a| + t] == z[t];
    }
    if Covers(a + z, p) {
      var t :| 0 <= t < |a + z| && p in (a + z)[t].cells;
      if t < |a| {
        assert (a + z)[t] == a[t];
      } else {
        assert (a + z)[t] == z[t - |a|];
      }
    }
  }

  lemma RowSegmentCells(r: int, x: Run, p: Cell)
    ensures p in RowSegment(r, x).cells <==> p.r == r && x.Start() <= p.c < x.stop
  {
    var cells := RowSegment(r, x).cells;
    if p.r == r && x.Start() <= p.c < x.stop {
      assert cells[x.stop - 1 - p.c] == p;
    }
  }

  lemma ColumnSegmentCells(c: int, x: Run, p: Cell)
    ensures p in ColumnSegment(c, x).cells <==> p.c == c && x.Start() <= p.r < x.stop
  {
    var cells := ColumnSegment(c, x).cells;
    if p.c == c && x.Start() <= p.r < x.stop {
      assert cells[x.stop - 1 - p.r] == p;
    }
  }

  lemma RowSegmentsCovered(r: int, runs: seq<Run>, p: Cell)
    ensures Covers(RowSegments(r, runs), p) <==> p.r == r && Covered(runs, p.c)
  {
    var here := RowSegments(r, runs);
    if Covers(here, p) {
      var t :| 0 <= t < |here| && p in here[t].cells;
      RowSegmentCells(r, runs[t], p);
    }
    if p.r == r && Covered(runs, p.c) {
      var t :| 0 <= t < |runs| && runs[t].Start() <= p.c < runs[t].stop;
      RowSegmentCells(r, runs[t], p);
      assert p in here[t].cells;
    }
  }

  lemma ColumnSegmentsCovered(c: int, runs: seq<Run>, p: Cell)
    ensures Covers(ColumnSegments(c, runs), p) <==> p.c == c && Covered(runs, p.r)
  {
    var here := ColumnSegments(c, runs);
    if Covers(here, p) {
      var t :| 0 <= t < |here| && p in here[t].cells;
      ColumnSegmentCells(c, runs[t], p);
    }
    if p.c == c && Covered(runs, p.r) {
      var t :| 0 <= t < |runs| && runs[t].Start() <= p.r < runs[t].stop;
      ColumnSegmentCells(c, runs[t], p);
      assert p in here[t].cells;
    }
  }

  lemma {:induction false} RowSegmentsCover(b: Grid, r: int, p: Cell)
    requires WellFormed(b) && 0 <= r <= ROWS && InBounds(p)
    ensures Covers(RowSegmentsFrom(b, r), p) <==> r <= p.r && InRun(b[p.r], p.c)
    decreases ROWS - r
  {
    if r < ROWS {
      RowSegmentsCover(b, r + 1, p);
      var runs := ScanLine(b[r]);
      CoversAppend(RowSegments(r, runs), RowSegmentsFrom(b, r + 1), p);
      RowSegmentsCovered(r, runs, p);
      if p.r == r {
        assert Covered(runs, p.c) <==> InRun(b[r], p.c);
      }
    }
  }

  lemma {:induction false} ColumnSegmentsCover(b: Grid, c: int, p: Cell)
    requires WellFormed(b) && 0 <= c <= COLS && InBounds(p)
    ensures Covers(ColumnSegmentsFrom(b, c), p) <==> c <= p.c && InRun(Column(b, p.c), p.r)
    decreases COLS - c
  {
    if c < COLS {
      ColumnSegmentsCover(b, c + 1, p);
      var runs := ScanLine(Column(b, c));
      CoversAppend(ColumnSegments(c, runs), ColumnSegmentsFrom(b, c + 1), p);
      ColumnSegmentsCovered(c, runs, p);
      if p.c == c {
        assert Covered(runs, p.r) <==> InRun(Column(b, c), p.r);
      }
    }
  }

  /** The marks mask is exactly the union of the segments' cells, and a cell is
      marked exactly when it lies in a horizontal or vertical stretch of three
      or more equal occupied cells: findMatches misses no run. */
  lemma MarksExact(b: Grid)
    requires WellFormed(b)
    ensures forall r, c :: 0 <= r < ROWS && 0 <= c < COLS ==>
      (FindMatches(b).marks[r][c] <==> exists t :: 0 <= t < |FindMatches(b).segments| && Cell(r, c) in FindMatches(b).segments[t].cells)
    ensures forall r, c :: 0 <= r < ROWS && 0 <= c < COLS ==>
      (FindMatches(b).marks[r][c] <==> InRun(b[r], c) || InRun(Column(b, c), r))
  {
    forall r, c | 0 <= r < ROWS && 0 <= c < COLS
      ensures FindMatches(b).marks[r][c] <==> Covers(Segments(b), Cell(r, c))
      ensures FindMatches(b).marks[r][c] <==> InRun(b[r], c) || InRun(Column(b, c), r)
    {
      CellMarked(b, Cell(r, c));
    }
  }

  lemma CellMarked(b: Grid, p: Cell)
    requires WellFormed(b) && InBounds(p)
    ensures FindMatches(b).marks[p.r][p.c] <==> Covers(Segments(b), p)
    ensures FindMatches(b).marks[p.r][p.c] <==> InRun(b[p.r], p.c) || InRun(Column(b, p.c), p.r)
  {
    assert FindMatches(b).marks == MarksOf(Segments(b));
    CoversAppend(RowSegmentsFrom(b, 0), ColumnSegmentsFrom(b, 0), p);
    RowSegmentsCover(b, 0, p);
    ColumnSegmentsCover(b, 0, p);
  }

  // ----- The segments are the maximal runs, each listed once -----

  /** seg is the segment built for a maximal run of row r or a row below it. */
  ghost predicate RowRunFrom(b: Grid, r: int, seg: Segment)
    requires WellFormed(b)
  {
    exists r', x :: 0 <= r' < ROWS && r <= r' && MaximalRun(b[r'], x) && seg == RowSegment(r', x)
  }

  /** seg is the segment built for a maximal run of column c or a column to
      its right. */
  ghost predicate ColumnRunFrom(b: Grid, c: int, seg: Segment)
    requires WellFormed(b)
  {
    exists c', x :: 0 <= c' < COLS && c <= c' && MaximalRun(Column(b, c'), x) && seg == ColumnSegment(c', x)
  }

  ghost predicate NoRepeats(segs: seq<Segment>) {
    forall t, u :: 0 <= t < u < |segs| ==> segs[t] != segs[u]
  }

  lemma NoRepeatsAppend(x: seq<Segment>, y: seq<Segment>)
    requires NoRepeats(x) && NoRepeats(y)
    requires forall t, u :: 0 <= t < |x| && 0 <= u < |y| ==> x[t] != y[u]
    ensures NoRepeats(x + y)
  {
    forall t, u | 0 <= t < u < |x + y|
      ensures (x + y)[t] != (x + y)[u]
    {
      if u < |x| {
        assert (x + y)[t] == x[t] && (x + y)[u] == x[u];
      } else if t < |x| {
        assert (x + y)[t] == x[t] && (x + y)[u] == y[u - |x|];
      } else {
        assert (x + y)[t] == y[t - |x|] && (x + y)[u] == y[u - |x|];
      }
    }
  }

  /** The first two cells of a row segment: its right end, then the cell to
      its left. */
  lemma RowSegmentHead(r: int, x: Run)
    requires x.len >= 3
    ensures |RowSegment(r, x).cells| >= 3
    ensures RowSegment(r, x).cells[0] == Cell(r, x.stop - 1)
    ensures RowSegment(r, x).cells[1] == Cell(r, x.stop - 2)
  {
  }

  /** The first two cells of a column segment: its bottom end, then the cell
      above it. */
  lemma ColumnSegmentHead(c: int, x: Run)
    requires x.len >= 3
    ensures |ColumnSegment(c, x).cells| >= 3
    ensures ColumnSegment(c, x).cells[0] == Cell(x.stop - 1, c)
    ensures ColumnSegment(c, x).cells[1] == Cell(x.stop - 2, c)
  {
  }

  /** A row segment of row r or below: at least three cells, the second
      one left of the first. */
  ghost predicate RowLedFrom(seg: Segment, r: int) {
    |seg.cells| >= 3 && seg.cells[0].r >= r && seg.cells[1] == Cell(seg.cells[0].r, seg.cells[0].c - 1)
  }

  /** A column segment of column c or to its right: at least three cells,
      the second one above the first. */
  ghost predicate ColumnLedFrom(seg: Segment, c: int) {
    |seg.cells| >= 3 && seg.cells[0].c >= c && seg.cells[1] == Cell(seg.cells[0].r - 1, seg.cells[0].c)
  }

  /** The segments of one row: each is a maximal run's segment, led from
      row r, and they are pairwise different. */
  lemma RowHere(b: Grid, r: int)
    requires WellFormed(b) && 0 <= r < ROWS
    ensures forall t :: 0 <= t < |RowSegments(r, ScanLine(b[r]))| ==>
      RowRunFrom(b, r, RowSegments(r, ScanLine(b[r]))[t]) &&
      RowLedFrom(RowSegments(r, ScanLine(b[r]))[t], r) && RowSegments(r, ScanLine(b[r]))[t].cells[0].r == r
    ensures NoRepeats(RowSegments(r, ScanLine(b[r])))
  {
    var runs := ScanLine(b[r]);
    var here := RowSegments(r, runs);
    forall t | 0 <= t < |here|
      ensures RowRunFrom(b, r, here[t]) && RowLedFrom(here[t], r) && here[t].cells[0].r == r
    {
      assert MaximalRun(b[r], runs[t]);
      RowSegmentHead(r, runs[t]);
    }
    forall t, u | 0 <= t < u < |here|
      ensures here[t] != here[u]
    {
      RowSegmentHead(r, runs[t]);
      RowSegmentHead(r, runs[u]);
      assert runs[t].stop <= runs[u].Start();
    }
  }

  /** The segments of one column, likewise. */
  lemma ColumnHere(b: Grid, c: int)
    requires WellFormed(b) && 0 <= c < COLS
    ensures forall t :: 0 <= t < |ColumnSegments(c, ScanLine(Column(b, c)))| ==>
      ColumnRunFrom(b, c, ColumnSegments(c, ScanLine(Column(b, c)))[t]) &&
      ColumnLedFrom(ColumnSegments(c, ScanLine(Column(b, c)))[t], c) &&
      ColumnSegments(c, ScanLine(Column(b, c)))[t].cells[0].c == c
    ensures NoRepeats(ColumnSegments(c, ScanLine(Column(b, c))))
  {
    var runs := ScanLine(Column(b, c));
    var here := ColumnSegments(c, runs);
    forall t | 0 <= t < |here|
      ensures ColumnRunFrom(b, c, here[t]) && ColumnLedFrom(here[t], c) && here[t].cells[0].c == c
    {
      assert MaximalRun(Column(b, c), runs[t]);
      ColumnSegmentHead(c, runs[t]);
    }
    forall t, u | 0 <= t < u < |here|
      ensures here[t] != here[u]
    {
      ColumnSegmentHead(c, runs[t]);
      ColumnSegmentHead(c, runs[u]);
      assert runs[t].stop <= runs[u].Start();
    }
  }

  /** Every segment of segs is a maximal row run's segment, of row r or
      below, led from row r. */
  ghost predicate RowRunsFrom(b: Grid, r: int, segs: seq<Segment>)
    requires WellFormed(b)
  {
    forall t :: 0 <= t < |segs| ==> RowRunFrom(b, r, segs[t]) && RowLedFrom(segs[t], r)
  }

  /** Every segment of segs is a maximal column run's segment, of column c
      or to its right, led from column c. */
  ghost predicate ColumnRunsFrom(b: Grid, c: int, segs: seq<Segment>)
    requires WellFormed(b)
  {
    forall t :: 0 <= t < |segs| ==> ColumnRunFrom(b, c, segs[t]) && ColumnLedFrom(segs[t], c)
  }

  /** One row's segments put before those of the rows below. */
  lemma RowRunsJoin(b: Grid, r: int, here: seq<Segment>, rest: seq<Segment>)
    requires WellFormed(b) && 0 <= r < ROWS
    requires RowRunsFrom(b, r, here) && RowRunsFrom(b, r + 1, rest)
    requires forall t :: 0 <= t < |here| ==> here[t].cells[0].r == r
    requires NoRepeats(here) && NoRepeats(rest)
    ensures RowRunsFrom(b, r, here + rest) && NoRepeats(here + rest)
  {
    forall t | 0 <= t < |here + rest|
      ensures RowRunFrom(b, r, (here + rest)[t]) && RowLedFrom((here + rest)[t], r)
    {
      if t < |here| {
        assert (here + rest)[t] == here[t];
      } else {
        var seg := rest[t - |here|];
        assert (here + rest)[t] == seg;
        assert RowRunFrom(b, r + 1, seg) && RowLedFrom(seg, r + 1);
        var r', x :| 0 <= r' < ROWS && r + 1 <= r' && MaximalRun(b[r'], x) && seg == RowSegment(r', x);
        assert RowRunFrom(b, r, seg);
      }
    }
    forall t, u | 0 <= t < |here| && 0 <= u < |rest|
      ensures here[t] != rest[u]
    {
      assert RowLedFrom(rest[u], r + 1);
    }
    NoRepeatsAppend(here, rest);
  }

  /** One column's segments put before those of the columns to its right. */
  lemma ColumnRunsJoin(b: Grid, c: int, here: seq<Segment>, rest: seq<Segment>)
    requires WellFormed(b) && 0 <= c < COLS
    requires ColumnRunsFrom(b, c, here) && ColumnRunsFrom(b, c + 1, rest)
    requires forall t :: 0 <= t < |here| ==> here[t].cells[0].c == c
    requires NoRepeats(here) && NoRepeats(rest)
    ensures ColumnRunsFrom(b, c, here + rest) && NoRepeats(here + rest)
  {
    forall t | 0 <= t < |here + rest|
      ensures ColumnRunFrom(b, c, (here + rest)[t]) && ColumnLedFrom((here + rest)[t], c)
    {
      if t < |here| {
        assert (here + rest)[t] == here[t];
      } else {
        var seg := rest[t - |here|];
        assert (here + rest)[t] == seg;
        assert ColumnRunFrom(b, c + 1, seg) && ColumnLedFrom(seg, c + 1);
        var c', x :| 0 <= c' < COLS && c + 1 <= c' && MaximalRun(Column(b, c'), x) && seg == ColumnSegment(c', x);
        assert ColumnRunFrom(b, c, seg);
      }
    }
    forall t, u | 0 <= t < |here| && 0 <= u < |rest|
      ensures here[t] != rest[u]
    {
      assert ColumnLedFrom(rest[u], c + 1);
    }
    NoRepeatsAppend(here, rest);
  }

  lemma {:induction false} RowSegmentsRuns(b: Grid, r: int)
    requires WellFormed(b) && 0 <= r <= ROWS
    ensures RowRunsFrom(b, r, RowSegmentsFrom(b, r)) && NoRepeats(RowSegmentsFrom(b, r))
    decreases ROWS - r
  {
    if r < ROWS {
      RowSegmentsRuns(b, r + 1);
      RowHere(b, r);
      RowRunsJoin(b, r, RowSegments(r, ScanLine(b[r])), RowSegmentsFrom(b, r + 1));
    }
  }

  lemma {:induction false} ColumnSegmentsRuns(b: Grid, c: int)
    requires WellFormed(b) && 0 <= c <= COLS
    ensures ColumnRunsFrom(b, c, ColumnSegmentsFrom(b, c)) && NoRepeats(ColumnSegmentsFrom(b, c))
    decreases COLS - c
  {
    if c < COLS {
      ColumnSegmentsRuns(b, c + 1);
      ColumnHere(b, c);
      ColumnRunsJoin(b, c, ColumnSegments(c, ScanLine(Column(b, c))), ColumnSegmentsFrom(b, c + 1));
    }
  }

  lemma RowHereComplete(b: Grid, r: int, x: Run)
    requires WellFormed(b) && 0 <= r < ROWS && MaximalRun(b[r], x)
    ensures RowSegment(r, x) in RowSegments(r, ScanLine(b[r]))
  {
    var runs := ScanLine(b[r]);
    var t :| 0 <= t < |runs| && runs[t] == x;
    assert RowSegments(r, runs)[t] == RowSegment(r, x);
  }

  lemma ColumnHereComplete(b: Grid, c: int, x: Run)
    requires WellFormed(b) && 0 <= c < COLS && MaximalRun(Column(b, c), x)
    ensures ColumnSegment(c, x) in ColumnSegments(c, ScanLine(Column(b, c)))
  {
    var runs := ScanLine(Column(b, c));
    var t :| 0 <= t < |runs| && runs[t] == x;
    assert ColumnSegments(c, runs)[t] == ColumnSegment(c, x);
  }

  lemma {:induction false} RowSegmentsComplete(b: Grid, r0: int)
    requires WellFormed(b) && 0 <= r0 <= ROWS
    ensures forall r, x :: r0 <= r < ROWS && MaximalRun(b[r], x) ==> RowSegment(r, x) in RowSegmentsFrom(b, r0)
    decreases ROWS - r0
  {
    if r0 < ROWS {
      RowSegmentsComplete(b, r0 + 1);
      var here := RowSegments(r0, ScanLine(b[r0]));
      var rest := RowSegmentsFrom(b, r0 + 1);
      assert RowSegmentsFrom(b, r0) == here + rest;
      forall r, x | r0 <= r < ROWS && MaximalRun(b[r], x)
        ensures RowSegment(r, x) in here + rest
      {
        if r == r0 {
          RowHereComplete(b, r, x);
        } else {
          assert RowSegment(r, x) in rest;
        }
      }
    }
  }

  lemma {:induction false} ColumnSegmentsComplete(b: Grid, c0: int)
    requires WellFormed(b) && 0 <= c0 <= COLS
    ensures forall c, x :: c0 <= c < COLS && MaximalRun(Column(b, c), x) ==> ColumnSegment(c, x) in ColumnSegmentsFrom(b, c0)
    decreases COLS - c0
  {
    if c0 < COLS {
      ColumnSegmentsComplete(b, c0 + 1);
      var here := ColumnSegments(c0, ScanLine(Column(b, c0)));
      var rest := ColumnSegmentsFrom(b, c0 + 1);
      assert ColumnSegmentsFrom(b, c0) == here + rest;
      forall c, x | c0 <= c < COLS && MaximalRun(Column(b, c), x)
        ensures ColumnSegment(c, x) in here + rest
      {
        if c == c0 {
          ColumnHereComplete(b, c, x);
        } else {
          assert ColumnSegment(c, x) in rest;
        }
      }
    }
  }

  /** The row segments then the column segments: each is a maximal run's
      segment and none is listed twice. */
  lemma RowsThenColumns(b: Grid, rows: seq<Segment>, cols: seq<Segment>)
    requires WellFormed(b)
    requires RowRunsFrom(b, 0, rows) && NoRepeats(rows)
    requires ColumnRunsFrom(b, 0, cols) && NoRepeats(cols)
    ensures forall t :: 0 <= t < |rows + cols| ==> RowRunFrom(b, 0, (rows + cols)[t]) || ColumnRunFrom(b, 0, (rows + cols)[t])
    ensures NoRepeats(rows + cols)
  {
    forall t | 0 <= t < |rows + cols|
      ensures RowRunFrom(b, 0, (rows + cols)[t]) || ColumnRunFrom(b, 0, (rows + cols)[t])
    {
      if t < |rows| {
        assert (rows + cols)[t] == rows[t];
      } else {
        assert (rows + cols)[t] == cols[t - |rows|];
      }
    }
    forall t, u | 0 <= t < |rows| && 0 <= u < |cols|
      ensures rows[t] != cols[u]
    {
      assert RowLedFrom(rows[t], 0) && ColumnLedFrom(cols[u], 0);
    }
    NoRepeatsAppend(rows, cols);
  }

  /** The segments of findMatches are exactly the maximal runs of every row
      and every column, each listed once: every segment is the segment of a
      maximal row run or of a maximal column run, every maximal run has its
      segment in the list, and no segment appears twice. So the score and the
      promotion sites of a board are fixed by the board alone. */
  lemma SegmentsExact(b: Grid)
    requires WellFormed(b)
    ensures forall t :: 0 <= t < |FindMatches(b).segments| ==>
      RowRunFrom(b, 0, FindMatches(b).segments[t]) || ColumnRunFrom(b, 0, FindMatches(b).segments[t])
    ensures forall r, x :: 0 <= r < ROWS && MaximalRun(b[r], x) ==> RowSegment(r, x) in FindMatches(b).segments
    ensures forall c, x :: 0 <= c < COLS && MaximalRun(Column(b, c), x) ==> ColumnSegment(c, x) in FindMatches(b).segments
    ensures NoRepeats(FindMatches(b).segments)
  {
    assert FindMatches(b).segments == Segments(b) == RowSegmentsFrom(b, 0) + ColumnSegmentsFrom(b, 0);
    RowSegmentsRuns(b, 0);
    ColumnSegmentsRuns(b, 0);
    RowsThenColumns(b, RowSegmentsFrom(b, 0), ColumnSegmentsFrom(b, 0));
    RowSegmentsComplete(b, 0);
    ColumnSegmentsComplete(b, 0);
  }

  /** The first three cells of a sound segment are a triple. */
  lemma SoundSegmentTriple(b: Grid, seg: Segment)
    requires WellFormed(b) && SegmentSound(b, seg)
    ensures HasTriple(b)
  {
    var cells := seg.cells;
    var p := cells[0];
    assert InBounds(cells[1]) && InBounds(cells[2]);
    assert Get(b, cells[1]) == Get(b, p) && Get(b, cells[2]) == Get(b, p);
    if forall k :: 0 <= k < |cells| ==> cells[k] == Cell(p.r, p.c - k) {
      assert cells[2] == Cell(p.r, p.c - 2) && cells[1] == Cell(p.r, p.c - 1);
      assert RowTriple(b, p.r, p.c - 2);
    } else {
      assert cells[2] == Cell(p.r - 2, p.c) && cells[1] == Cell(p.r - 1, p.c);
      assert ColumnTriple(b, p.r - 2, p.c);
    }
  }

  /** A segment of findMatches starts three equal occupied cells. */
  lemma SegmentGivesTriple(b: Grid)
    requires WellFormed(b) && |Segments(b)| > 0
    ensures HasTriple(b)
  {
    RowSegmentsSound(b, 0);
    ColumnSegmentsSound(b, 0);
    AllSoundAppend(b, RowSegmentsFrom(b, 0), ColumnSegmentsFrom(b, 0));
    SoundSegmentTriple(b, Segments(b)[0]);
  }

  lemma RowTripleMarked(b: Grid, r: int, c: int)
    requires WellFormed(b) && 0 <= r < ROWS && 0 <= c && c + 2 < COLS && RowTriple(b, r, c)
    ensures |Segments(b)| > 0
  {
    assert Uniform(b[r], c, c + 3);
    assert InRun(b[r], c);
    CellMarked(b, Cell(r, c));
  }

  lemma ColumnTripleMarked(b: Grid, r: int, c: int)
    requires WellFormed(b) && 0 <= r && r + 2 < ROWS && 0 <= c < COLS && ColumnTriple(b, r, c)
    ensures |Segments(b)| > 0
  {
    var col := Column(b, c);
    assert Uniform(col, r, r + 3);
    assert InRun(col, r);
    CellMarked(b, Cell(r, c));
  }

  /** findMatches reports a match exactly when it finds a segment, exactly when
      the grid holds three equal occupied cells in a row or a column. */
  lemma HasMatchIffTriple(b: Grid)
    requires WellFormed(b)
    ensures FindMatches(b).hasMatch <==> |FindMatches(b).segments| > 0
    ensures FindMatches(b).hasMatch <==> HasTriple(b)
  {
    if |Segments(b)| > 0 {
      SegmentGivesTriple(b);
    }
    if exists r, c :: 0 <= r < ROWS && 0 <= c && c + 2 < COLS && RowTriple(b, r, c) {
      var r, c :| 0 <= r < ROWS && 0 <= c && c + 2 < COLS && RowTriple(b, r, c);
      RowTripleMarked(b, r, c);
    }
    if exists r, c :: 0 <= r && r + 2 < ROWS && 0 <= c < COLS && ColumnTriple(b, r, c) {
      var r, c :| 0 <= r && r + 2 < ROWS && 0 <= c < COLS && ColumnTriple(b, r, c);
      ColumnTripleMarked(b, r, c);
    }
  }
}

=== FILE: moves.dfy ===
/** Move validation: the probe of willMatchAfterSwap, the deadlock scan of
    hasPossibleMoves, and the selection logic of onTileClicked. */
module Moves {
  import opened Board
  import opened Matches

  /** The probe's verdict and the board it leaves behind. */
  datatype Probe = Probe(matches: bool, board: Grid)

  /** willMatchAfterSwap: swap, scan, swap back. The board handed back is the
      one the probe started from, and the verdict is whether the swapped
      board holds three equal occupied cells in a row or column. */
  function WillMatchAfterSwap(b: Grid, p: Cell, q: Cell): (probe: Probe)
    requires WellFormed(b) && InBounds(p) && InBounds(q)
    ensures probe.board == b
    ensures probe.matches <==> HasTriple(Swap(b, p, q))
  {
    var swapped := Swap(b, p, q);
    var result := FindMatches(swapped);
    var restored := Swap(swapped, p, q);
    SwapInvolution(b, p, q);
    HasMatchIffTriple(swapped);
    Probe(result.hasMatch, restored)
  }

  /** Swapping (r, c) with its right neighbour lines up three equal cells. */
  ghost predicate RightSwapMatches(b: Grid, r: int, c: int)
    requires WellFormed(b)
  {
    0 <= r < ROWS && 0 <= c && c + 1 < COLS && HasTriple(Swap(b, Cell(r, c), Cell(r, c + 1)))
  }

  /** Swapping (r, c) with its lower neighbour lines up three equal cells. */
  ghost predicate DownSwapMatches(b: Grid, r: int, c: int)
    requires WellFormed(b)
  {
    0 <= r && r + 1 < ROWS && 0 <= c < COLS && HasTriple(Swap(b, Cell(r, c), Cell(r + 1, c)))
  }

  /** Some swap of a cell with its right or lower neighbour makes a match. */
  ghost predicate SomeSwapMatches(b: Grid)
    requires WellFormed(b)
  {
    exists r, c :: RightSwapMatches(b, r, c) || DownSwapMatches(b, r, c)
  }

  /** No probe of the cells before (r, c) in row-major order finds a match. */
  ghost predicate NoMoveBefore(b: Grid, r: int, c: int)
    requires WellFormed(b)
  {
    forall i, j :: 0 <= i < ROWS && 0 <= j < COLS && (i < r || (i == r && j < c)) ==>
      !RightSwapMatches(b, i, j) && !DownSwapMatches(b, i, j)
  }

  lemma NoMoveStep(b: Grid, r: int, c: int)
    requires WellFormed(b) && NoMoveBefore(b, r, c)
    requires !RightSwapMatches(b, r, c) && !DownSwapMatches(b, r, c)
    ensures NoMoveBefore(b, r, c + 1)
  {
  }

  lemma NoMoveRow(b: Grid, r: int)
    requires WellFormed(b) && NoMoveBefore(b, r, COLS)
    ensures NoMoveBefore(b, r + 1, 0)
  {
  }

  /** hasPossibleMoves: probe every cell's right and lower neighbour in row
      major order and stop at the first swap that matches. It answers true
      exactly when some such swap lines up three equal occupied cells (which
      is when findMatches reports a match on the swapped board, by
      Matches.HasMatchIffTriple), and the board it hands back is the board it
      was given. */
  method HasPossibleMoves(b: Grid) returns (found: bool, after: Grid)
    requires WellFormed(b)
    ensures after == b
    ensures found <==> SomeSwapMatches(b)
  {
    var board := b;
    var r := 0;
    while r < ROWS
      invariant 0 <= r <= ROWS && board == b
      invariant NoMoveBefore(b, r, 0)
    {
      var c := 0;
      while c < COLS
        invariant 0 <= c <= COLS && board == b
        invariant NoMoveBefore(b, r, c)
      {
        if c + 1 < COLS {
          var probe := WillMatchAfterSwap(board, Cell(r, c), Cell(r, c + 1));
          board := probe.board;
          if probe.matches {
            assert RightSwapMatches(b, r, c);
            return true, board;
          }
        }
        if r + 1 < ROWS {
          var probe := WillMatchAfterSwap(board, Cell(r, c), Cell(r + 1, c));
          board := probe.board;
          if probe.matches {
            assert DownSwapMatches(b, r, c);
            return true, board;
          }
        }
        assert !RightSwapMatches(b, r, c) && !DownSwapMatches(b, r, c);
        NoMoveStep(b, r, c);
        c := c + 1;
      }
      NoMoveRow(b, r);
      r := r + 1;
    }
    forall i, j ensures !RightSwapMatches(b, i, j) && !DownSwapMatches(b, i, j) {
      if 0 <= i < ROWS && 0 <= j < COLS {
        assert NoMoveBefore(b, ROWS, 0);
      }
    }
    found, after := false, board;
  }

  /** What a click does to the selection: select a cell, drop the selection,
      move it to another cell, or hand an adjacent pair on to trySwap. */
  datatype Click = Click(selected: Option<Cell>, swap: Option<(Cell, Cell)>)

  /** The selection logic of onTileClicked (the busy and pause guards are not
      part of the model). */
  function OnTileClicked(selected: Option<Cell>, p: Cell): (k: Click)
    ensures k.swap.Some? <==> selected.Some? && selected.value != p && Adjacent(selected.value, p)
    ensures k.swap.Some? ==> k.swap.value == (selected.value, p) && k.selected.None?
    ensures k.swap.Some? ==> Abs(k.swap.value.0.r - k.swap.value.1.r) + Abs(k.swap.value.0.c - k.swap.value.1.c) == 1
    ensures k.swap.None? ==> k.selected == (if selected == Some(p) then None else Some(p))
  {
    match selected
    case None => Click(Some(p), None)
    case Some(s) =>
      if s == p then Click(None, None)
      else if !Adjacent(s, p) then Click(Some(p), None)
      else Click(None, Some((s, p)))
  }
}

=== FILE: scoring.dfy ===
/** The score side of a game: the running score, the best score, and the
    three one-shot sound cues that fire when the score first reaches their
    thresholds. Playing the cue is left out; the model reports which cues
    fire. */
module Scoring {

  const TARGET_SCORE: nat := 155800
  const EGG_THRESHOLDS: seq<nat> := [9200, 16500, 19200]
  const EGG_COUNT: nat := |EGG_THRESHOLDS|

  datatype Session = Session(score: nat, highScore: nat, eggPlayed: seq<bool>)

  function Max(a: nat, b: nat): nat {
    if a >= b then a else b
  }

  /** What every reachable session satisfies: three cue flags, a best score
      at least the current one, and a cue flag set only once the score of the
      current game has passed its threshold. */
  predicate Consistent(s: Session) {
    && |s.eggPlayed| == EGG_COUNT
    && s.highScore >= s.score
    && forall i :: 0 <= i < EGG_COUNT ==> s.eggPlayed[i] ==> s.score >= EGG_THRESHOLDS[i]
  }

  function NoEggs(): (flags: seq<bool>)
    ensures |flags| == EGG_COUNT && forall i :: 0 <= i < EGG_COUNT ==> !flags[i]
  {
    seq(EGG_COUNT, _ => false)
  }

  /** The start of a game: score 0 and no cue played, best score kept. */
  function Fresh(highScore: nat): (s: Session)
    ensures Consistent(s) && s.score == 0 && s.highScore == highScore
  {
    Session(0, highScore, NoEggs())
  }

  /** updateScoreText: the best score catches up with the score. */
  function UpdateScoreText(s: Session): (s': Session)
    ensures s'.score == s.score && s'.eggPlayed == s.eggPlayed
    ensures s'.highScore >= s.score && s'.highScore >= s.highScore
    ensures s'.highScore == s.score || s'.highScore == s.highScore
  {
    s.(highScore := Max(s.highScore, s.score))
  }

  /** Add a gain to the score and update the best score. */
  function AddScore(s: Session, gain: nat): (s': Session)
    ensures Consistent(s) ==> Consistent(s')
    ensures s'.score == s.score + gain && s'.eggPlayed == s.eggPlayed
    ensures s'.highScore == Max(s.highScore, s.score + gain)
  {
    UpdateScoreText(s.(score := s.score + gain))
  }

  /** The cues checkEgg plays, in threshold order, and the flags it leaves. */
  datatype EggCheck = EggCheck(session: Session, fired: seq<nat>)

  /** One pass of checkEgg's loop from cue i on. */
  function EggsFrom(played: seq<bool>, score: nat, i: nat): (x: (seq<bool>, seq<nat>))
    requires |played| == EGG_COUNT && i <= EGG_COUNT
    ensures |x.0| == EGG_COUNT
    ensures forall k :: 0 <= k < EGG_COUNT ==>
      x.0[k] == (played[k] || (k >= i && score >= EGG_THRESHOLDS[k]))
    ensures forall k :: k in x.1 <==> i <= k < EGG_COUNT && !played[k] && score >= EGG_THRESHOLDS[k]
    ensures forall a, b :: 0 <= a < b < |x.1| ==> x.1[a] < x.1[b]
    decreases EGG_COUNT - i
  {
    if i == EGG_COUNT then (played, [])
    else if !played[i] && score >= EGG_THRESHOLDS[i] then
      var rest := EggsFrom(played[i := true], score, i + 1);
      assert forall t :: 0 <= t < |rest.1| ==> i < rest.1[t] by {
        forall t | 0 <= t < |rest.1| ensures i < rest.1[t] {
          assert rest.1[t] in rest.1;
        }
      }
      (rest.0, [i] + rest.1)
    else EggsFrom(played, score, i + 1)
  }

  /** checkEgg: when cues are enabled, every cue whose threshold the score has
      reached and that has not played yet plays now, once, in threshold
      order; when disabled nothing changes. */
  function CheckEgg(s: Session, enabled: bool): (x: EggCheck)
    requires |s.eggPlayed| == EGG_COUNT
    ensures |x.session.eggPlayed| == EGG_COUNT && (Consistent(s) ==> Consistent(x.session))
    ensures x.session.score == s.score && x.session.highScore == s.highScore
    ensures !enabled ==> x.session == s && x.fired == []
    ensures enabled ==> forall k :: 0 <= k < EGG_COUNT ==>
      x.session.eggPlayed[k] == (s.eggPlayed[k] || s.score >= EGG_THRESHOLDS[k])
    ensures forall k :: k in x.fired <==>
      enabled && 0 <= k < EGG_COUNT && !s.eggPlayed[k] && s.score >= EGG_THRESHOLDS[k]
    ensures forall a, b :: 0 <= a < b < |x.fired| ==> x.fired[a] < x.fired[b]
  {
    if !enabled then EggCheck(s, [])
    else
      var r := EggsFrom(s.eggPlayed, s.score, 0);
      EggCheck(s.(eggPlayed := r.0), r.1)
  }

  /** A second check at the same score plays nothing and changes nothing. */
  lemma CheckEggIdempotent(s: Session, enabled: bool)
    requires |s.eggPlayed| == EGG_COUNT
    ensures CheckEgg(CheckEgg(s, enabled).session, enabled).fired == []
    ensures CheckEgg(CheckEgg(s, enabled).session, enabled).session == CheckEgg(s, enabled).session
  {
    var once := CheckEgg(s, enabled).session;
    var twice := CheckEgg(once, enabled);
    assert twice.session.eggPlayed == once.eggPlayed;
  }

  /** A run of scoring steps within one game, each adding its gain and then
      checking the cues: the cues fired along the run, in order, and the
      session it ends in. */
  function PlayCues(s: Session, gains: seq<nat>, enabled: bool): (x: EggCheck)
    requires |s.eggPlayed| == EGG_COUNT
    ensures |x.session.eggPlayed| == EGG_COUNT
    decreases |gains|
  {
    if |gains| == 0 then EggCheck(s, [])
    else
      var step := CheckEgg(AddScore(s, gains[0]), enabled);
      var rest := PlayCues(step.session, gains[1..], enabled);
      EggCheck(rest.session, step.fired + rest.fired)
  }

  /** A cue plays at most once per game: along any run of scoring steps no
      cue fires twice, none fires that had already played, and a played cue
      stays played. */
  lemma {:induction false} CueOncePerGame(s: Session, gains: seq<nat>, enabled: bool)
    requires |s.eggPlayed| == EGG_COUNT
    ensures forall k :: k in PlayCues(s, gains, enabled).fired ==> 0 <= k < EGG_COUNT && !s.eggPlayed[k]
    ensures forall a, b :: 0 <= a < b < |PlayCues(s, gains, enabled).fired| ==>
      PlayCues(s, gains, enabled).fired[a] != PlayCues(s, gains, enabled).fired[b]
    ensures forall k :: 0 <= k < EGG_COUNT && s.eggPlayed[k] ==> PlayCues(s, gains, enabled).session.eggPlayed[k]
    decreases |gains|
  {
    if |gains| > 0 {
      var added := AddScore(s, gains[0]);
      var step := CheckEgg(added, enabled);
      CueOncePerGame(step.session, gains[1..], enabled);
      var rest := PlayCues(step.session, gains[1..], enabled);
      var fired := step.fired + rest.fired;
      assert PlayCues(s, gains, enabled).fired == fired;
      forall k | k in step.fired
        ensures step.session.eggPlayed[k]
      {
      }
      forall a, b | 0 <= a < b < |fired|
        ensures fired[a] != fired[b]
      {
        if b >= |step.fired| {
          assert fired[b] == rest.fired[b - |step.fired|];
          assert fired[b] in rest.fired;
          if a < |step.fired| {
            assert fired[a] == step.fired[a] && fired[a] in step.fired;
          } else {
            assert fired[a] == rest.fired[a - |step.fired|];
          }
        }
      }
      forall k | k in fired
        ensures 0 <= k < EGG_COUNT && !s.eggPlayed[k]
      {
        if k !in step.fired {
          assert k in rest.fired;
        }
      }
    }
  }

  /** Whether checkSpecialWin ended the game, and the session after it. */
  datatype WinCheck = WinCheck(won: bool, session: Session)

  /** checkSpecialWin: reaching the target score records the best score and
      starts a new game with score 0 and every cue re-armed; below the target
      nothing changes. */
  function CheckSpecialWin(s: Session): (x: WinCheck)
    ensures Consistent(s) ==> Consistent(x.session)
    ensures x.won <==> s.score >= TARGET_SCORE
    ensures x.won ==> x.session == Fresh(Max(s.highScore, s.score)) && x.session.highScore >= TARGET_SCORE
    ensures !x.won ==> x.session == s
  {
    if s.score >= TARGET_SCORE then
      WinCheck(true, UpdateScoreText(Fresh(Max(s.highScore, s.score))))
    else WinCheck(false, s)
  }

  /** onGameOver: the best score is recorded and a new game starts with
      score 0 and every cue re-armed. */
  function OnGameOver(s: Session): (s': Session)
    ensures s' == Fresh(Max(s.highScore, s.score))
    ensures Consistent(s') && s'.score == 0 && s'.highScore >= s.score && s'.highScore >= s.highScore
    ensures forall i :: 0 <= i < EGG_COUNT ==> !s'.eggPlayed[i]
    ensures Consistent(s) ==> s'.highScore == s.highScore
  {
    UpdateScoreText(Fresh(Max(s.highScore, s.score)))
  }

  /** resetGame: a new game with score 0 and every cue re-armed, keeping the
      best score. */
  function ResetGame(s: Session): (s': Session)
    ensures s' == Fresh(s.highScore)
    ensures Consistent(s') && s'.score == 0 && s'.highScore == s.highScore
    ensures forall i :: 0 <= i < EGG_COUNT ==> !s'.eggPlayed[i]
  {
    UpdateScoreText(Fresh(s.highScore))
  }
}

=== FILE: special.dfy ===
/** triggerSpecialClear: swapping a special tile with a neighbour clears every
    tile of the neighbour's kind, plus the two swapped tiles, for 100 points
    per cleared cell. The special flag lives on the tile, not in the grid:
    the grid cell under a special tile still holds its ordinary kind, and the
    target scan reads the grid only. */
module Special {
  import opened Board

  const SCORE_PER_CELL: nat := 100

  /** The roles of the two swapped tiles. */
  datatype Roles = Roles(special: Cell, other: Cell)

  /** The flagged tile acts as the special one; when both are flagged (or,
      unreachably, neither), the first tile a does. */
  function ChooseRoles(a: Cell, b: Cell, specialA: bool, specialB: bool): (roles: Roles)
    ensures roles == Roles(a, b) || roles == Roles(b, a)
    ensures specialA ==> roles.special == a
    ensures specialB && roles.special != b ==> specialA
    ensures !specialB ==> roles.special == a
  {
    if specialA && !specialB then Roles(a, b)
    else if !specialA && specialB then Roles(b, a)
    else Roles(a, b)
  }

  /** Row-major order of cells. */
  predicate Before(p: Cell, q: Cell) {
    p.r < q.r || (p.r == q.r && p.c < q.c)
  }

  /** Strictly increasing in row-major order, hence free of repeats. */
  ghost predicate Ordered(cells: seq<Cell>) {
    forall i, j :: 0 <= i < j < |cells| ==> Before(cells[i], cells[j])
  }

  predicate Distinct(cells: seq<Cell>) {
    forall i, j :: 0 <= i < j < |cells| ==> cells[i] != cells[j]
  }

  /** The target scan: every cell holding the given kind, in row-major order. */
  method KindCells(b: Grid, kind: int) returns (cells: seq<Cell>)
    requires WellFormed(b)
    ensures forall p :: p in cells <==> InBounds(p) && Get(b, p) == kind
    ensures Ordered(cells) && Distinct(cells)
  {
    cells := [];
    var r := 0;
    while r < ROWS
      invariant 0 <= r <= ROWS
      invariant forall i :: 0 <= i < |cells| ==>
        InBounds(cells[i]) && Get(b, cells[i]) == kind && cells[i].r < r
      invariant forall p :: InBounds(p) && Get(b, p) == kind && p.r < r ==> p in cells
      invariant Ordered(cells)
    {
      var c := 0;
      while c < COLS
        invariant 0 <= c <= COLS
        invariant forall i :: 0 <= i < |cells| ==>
          InBounds(cells[i]) && Get(b, cells[i]) == kind && Before(cells[i], Cell(r, c))
        invariant forall p :: InBounds(p) && Get(b, p) == kind && Before(p, Cell(r, c)) ==> p in cells
        invariant Ordered(cells)
      {
        if b[r][c] == kind {
          cells := cells + [Cell(r, c)];
        }
        c := c + 1;
      }
      r := r + 1;
    }
    assert forall i, j :: 0 <= i < j < |cells| ==> Before(cells[i], cells[j]);
  }

  /** The dedupe filter: keep the first occurrence of every cell not already
      seen. */
  function Dedupe(xs: seq<Cell>, seen: set<Cell>): (ys: seq<Cell>)
    ensures |ys| <= |xs|
    decreases |xs|
  {
    if |xs| == 0 then []
    else if xs[0] in seen then Dedupe(xs[1..], seen)
    else [xs[0]] + Dedupe(xs[1..], seen + {xs[0]})
  }

  /** The filter keeps exactly the cells not seen before, each once. */
  lemma {:induction false} DedupeExact(xs: seq<Cell>, seen: set<Cell>)
    ensures Distinct(Dedupe(xs, seen))
    ensures forall p :: p in Dedupe(xs, seen) <==> p in xs && p !in seen
    decreases |xs|
  {
    if |xs| > 0 {
      var head, tail := xs[0], xs[1..];
      assert xs == [head] + tail;
      if head in seen {
        DedupeExact(tail, seen);
      } else {
        var rest := Dedupe(tail, seen + {head});
        DedupeExact(tail, seen + {head});
        assert head !in rest;
        var ys := [head] + rest;
        assert Dedupe(xs, seen) == ys;
        forall i, j | 0 <= i < j < |ys| ensures ys[i] != ys[j] {
          if i == 0 {
            assert ys[j] == rest[j - 1];
          } else {
            assert ys[i] == rest[i - 1] && ys[j] == rest[j - 1];
          }
        }
      }
    }
  }

  /** The cells of a list, as a set. */
  function Members(xs: seq<Cell>): (m: set<Cell>)
    ensures forall p :: p in m <==> p in xs
  {
    set p | p in xs
  }

  lemma DistinctTail(xs: seq<Cell>)
    requires |xs| > 0 && Distinct(xs)
    ensures Distinct(xs[1..]) && xs[0] !in xs[1..]
  {
    forall i, j | 0 <= i < j < |xs| - 1
      ensures xs[1..][i] != xs[1..][j]
    {
      assert xs[1..][i] == xs[i + 1] && xs[1..][j] == xs[j + 1];
    }
  }

  /** A list without repeats has as many members as entries. */
  lemma {:induction false} DistinctMembers(xs: seq<Cell>)
    requires Distinct(xs)
    ensures |Members(xs)| == |xs|
    decreases |xs|
  {
    if |xs| > 0 {
      DistinctTail(xs);
      DistinctMembers(xs[1..]);
      MembersCons(xs);
      assert xs[0] !in Members(xs[1..]);
    }
  }

  lemma MembersCons(xs: seq<Cell>)
    requires |xs| > 0
    ensures Members(xs) == {xs[0]} + Members(xs[1..])
  {
    assert xs == [xs[0]] + xs[1..];
  }

  /** What triggerSpecialClear removes and what it scores. */
  datatype Blast = Blast(roles: Roles, cells: seq<Cell>, gain: nat)

  /** The clear list of triggerSpecialClear: every cell holding the other
      tile's kind, then the special tile and the other tile, duplicates
      dropped. The list holds exactly those cells, each once, and the gain
      is 100 per cell. */
  method SpecialClear(b: Grid, a: Cell, c: Cell, specialA: bool, specialB: bool) returns (x: Blast)
    requires WellFormed(b) && InBounds(a) && InBounds(c)
    ensures x.roles == ChooseRoles(a, c, specialA, specialB)
    ensures forall p :: p in x.cells <==>
      p == a || p == c || (InBounds(p) && Get(b, p) == Get(b, x.roles.other))
    ensures Distinct(x.cells)
    ensures x.gain == SCORE_PER_CELL * |x.cells|
  {
    var roles := ChooseRoles(a, c, specialA, specialB);
    var target := Get(b, roles.other);
    var scan := KindCells(b, target);
    var cells := Dedupe(scan + [roles.special, roles.other], {});
    DedupeExact(scan + [roles.special, roles.other], {});
    x := Blast(roles, cells, SCORE_PER_CELL * |cells|);
  }

  /** Clear the listed cells, one after the other. */
  function ClearCells(b: Grid, cells: seq<Cell>): (b': Grid)
    requires WellFormed(b) && forall k :: 0 <= k < |cells| ==> InBounds(cells[k])
    ensures WellFormed(b')
    ensures forall p :: InBounds(p) ==> Get(b', p) == if p in cells then EMPTY else Get(b, p)
    decreases |cells|
  {
    if |cells| == 0 then b
    else ClearCells(Set(b, cells[0], EMPTY), cells[1..])
  }
}
